=== FILE: README.md ===
# ATS short-course helpers: a Dafny model of the pure rules

The ATS short course includes Python helpers that read simulation output, then
draw it. This project models the decision logic in those helpers. The drawing
and file handling are not modelled. It covers:

- **MeshDecoder**: `GetMeshPolygons` (`models/notebooks/libs/ats_vis.py`).
  - It decodes the XDMF "Mixed" connectivity buffer into a five-slot working
    table, one row per element.
  - It turns each row into a ring of node ids and looks the ids up in the node
    table.
  - A writer for well-formed records (`Encode`) is proved to round-trip through
    the decoder.
  - The decoder's quirks are modelled as the code has them:
    - an unknown cell code yields a zero row and does not advance the cursor;
    - numpy broadcasts a one-element slice into several slots;
    - a short slice of another length raises an error;
    - `-1` is dropped in every slot, but `0` only in the last two;
    - node lookup uses negative indexing.
- **FieldRange**: how `PlotPolygonsFields` chooses its colour bounds, and the
  `get_cmap` table.
- **LineScan**:
  - `get_skip_number`, in both copies of the library;
  - `read_file` from `obsRead.py`: the header line found via `linecache`, split
    on quotes, with one-character pieces blanked and empty ones dropped.
- **SourceSchedule**: the piecewise-constant schedule that
  `get_rainfall_from_xml` and `get_tracer_source_from_xml` build from a tabular
  function. A later interval wins where two intervals touch.
- **PickRegistry**: the label registry of `toggle_pick_callback`.
  - A point carries a label exactly when it has been picked an odd number of
    times.
  - The label is the one returned by its last pick.
- **MassBalance**: `05_debugging/plot_mass_balance.py`. It covers:
  - the day-of-year tick formatter and the tick filter;
  - the cumulative water and snow balance errors;
  - the panel count;
  - the column checks and unit conversions of `load`.
- **PlotParams**: the parameter rules of `03_transport/libs/ats_vis.py`. It
  covers:
  - the colour bounds of `plot_subsurface` and `plot_profiles`, including log
    clamping and the `LogNorm` range;
  - the surface panel limits and the axis label;
  - the result-file path of `get_var_names`;
  - how `plot_group` and `plot_all_domains` assemble their arguments;
  - the per-panel reads of `plot_subsurface`.

Some modelling choices apply throughout:

- Python floats are modelled as Dafny `real`, so there is no rounding, NaN or
  infinity.
- Python exceptions (IndexError, KeyError, TypeError, ValueError) become the
  `Err` side of a `Result`.
- numpy arrays and pandas columns become sequences.
- Dictionaries become maps.

An unknown cell code in the mesh's element table is not an error: that
element gets an all-zero row and the read position does not move, so every
later element gets one too (MeshDecoder.UnknownCodeSticks).

## Model

| member | source | states |
|---|---|---|
| MeshDecoder.ReadRecord | models/notebooks/libs/ats_vis.py:58-71 | One loop iteration. An empty buffer, and only an empty buffer, is BufferExhausted. Codes 4, 5 and 3 consume 4, 5 and 7 integers. An unknown code leaves a zero row and the buffer as it was. Any other failure is ShortRecord for that element and its code. |
| MeshDecoder.DecodeRows | models/notebooks/libs/ats_vis.py:56-72 | Decoding elements i..n-1 gives exactly n-i rows. An error names an element in that range and is never a lookup error. |
| MeshDecoder.Ring | models/notebooks/libs/ats_vis.py:85-91 | A ring has at most five ids and never holds -1. |
| MeshDecoder.GetMeshPolygons | models/notebooks/libs/ats_vis.py:36-98 | Decoder errors pass through. Otherwise the result is Ok exactly when every value of the working table indexes the node table, and NodeOutOfRange if not. There is one polygon per element. Polygon i is the coordinates of row i's ring in ring order. |
| MeshDecoder.ReadEncodedCell | models/notebooks/libs/ats_vis.py:58-71 | Reading a well-formed record from the front of a buffer yields that cell's row. The rest of the buffer is left after it. |
| MeshDecoder.DecodeFirstCell | models/notebooks/libs/ats_vis.py:58-72 | The first record of an encoded buffer gives the first row, and the loop goes on after that record for the next element. |
| MeshDecoder.DecodeExact | models/notebooks/libs/ats_vis.py:56-72 | Round trip: decoding the encoding of any list of cells gives back their rows. |
| MeshDecoder.UnknownCodeSticks | models/notebooks/libs/ats_vis.py:58-72 | Once the cursor reaches an unknown code, every later element decodes to a zero row. |
| MeshDecoder.UnknownCodeRows | models/notebooks/libs/ats_vis.py:56-91 | After well-formed records, an unknown code does not fail. The records before it decode as usual. Every element from the unknown code on gets an all-zero row, whose ring is node 0 three times. |
| MeshDecoder.TruncatedRecord | models/notebooks/libs/ats_vis.py:59-71 | A record cut short is read exactly when one id is left. That id is broadcast over the slots and the buffer is then empty. Any other cut is ShortRecord. |
| MeshDecoder.RingShape | models/notebooks/libs/ats_vis.py:85-91 | A ring is the non-sentinel ids of slots 0-2, then the ids of slots 3-4 that are neither 0 nor -1, each kept in slot order. |
| MeshDecoder.CellRing | models/notebooks/libs/ats_vis.py:85-92 | A triangle with ids other than -1 keeps its three ids. A quad or polygon keeps its leading ids plus each trailing id that is not 0 or -1. |
| MeshDecoder.MeshOfCells | models/notebooks/libs/ats_vis.py:56-98 | For an encoded mesh whose ids index the node table, the polygons are exactly the coordinates of each cell's ring. |
| MeshDecoder.Example | models/notebooks/libs/ats_vis.py:36-98 | A four-element mixed mesh (triangle, quad, pentagon, and a quad whose fourth id is 0) gives four polygons. The last of them is a triangle. |
| FieldRange.ColorRange | models/notebooks/libs/ats_vis.py:107-115 | LengthMismatch exactly when the counts differ. EmptyField exactly when the field is empty and a bound is missing. A given vmin is kept, and a missing one is the field's minimum. An upper bound below the lower one is replaced by twice the lower one. |
| FieldRange.RangeOrdered | models/notebooks/libs/ats_vis.py:114-115 | The returned bounds are ordered exactly when the lower bound is not negative or the pair was not inverted. |
| FieldRange.DefaultRangeSpansField | models/notebooks/libs/ats_vis.py:110-115 | With both bounds missing, a non-empty field gets an ordered range that contains every value. |
| FieldRange.GetCmap | models/notebooks/libs/ats_vis.py:169-190 | "jet" is returned exactly for a list of names or a name not in the five-entry table. Otherwise the table's entry is returned. |
| LineScan.Lines | models/notebooks/libs/ats_vis.py:165-166 | Iterating a file gives non-empty lines only. |
| LineScan.LinesConcat | 03_transport/libs/ats_vis.py:14-15 | Iterating a file's lines loses nothing: the lines concatenate back to the text. |
| LineScan.LinesShape | 03_transport/libs/ats_vis.py:14-15 | Every line is non-empty. Every line has its newline only at its end, and every line but the last ends in one. |
| LineScan.SkipNumber | models/notebooks/libs/ats_vis.py:163-166 | The count never exceeds the number of lines. It equals that number exactly when every line starts with '#'. |
| LineScan.CountCommentsAppend | 03_transport/libs/ats_vis.py:12-15 | The comment count of two blocks of lines is the sum of their counts, wherever the comments sit. |
| LineScan.Split | 04_arctic_hydrology/demo2_transient_column/py_script/obsRead.py:12 | `split('"')` gives at least one piece, and no piece contains the separator. |
| LineScan.SplitJoin | 04_arctic_hydrology/demo2_transient_column/py_script/obsRead.py:12 | Joining the pieces of `split('"')` with the quote gives the line back. |
| LineScan.JoinSplit | 04_arctic_hydrology/demo2_transient_column/py_script/obsRead.py:12 | Splitting undoes joining when no piece contains the separator. |
| LineScan.BlankThenDrop | 04_arctic_hydrology/demo2_transient_column/py_script/obsRead.py:13-16 | Blanking one-character pieces and then filtering out empty ones keeps exactly the pieces of length two or more, in order. |
| LineScan.GetLine | 04_arctic_hydrology/demo2_transient_column/py_script/obsRead.py:11 | A line number inside the file gives that line, when the line ends in a newline. A number outside the file gives "". |
| LineScan.ReadFile | 04_arctic_hydrology/demo2_transient_column/py_script/obsRead.py:3-17 | The count is the number of comment lines plus one. The header holds the quote-separated pieces of that line that have at least two characters, none of which contains a quote. |
| LineScan.HeaderAfterCommentBlock | 04_arctic_hydrology/demo2_transient_column/py_script/obsRead.py:4-11 | For a file that opens with k comment lines and has none later, the header is read from line k+1. |
| LineScan.CommentBlockCount | models/notebooks/libs/ats_vis.py:163-166 | Lines whose comment lines are exactly the first k contain k comment lines. |
| LineScan.QuotedHeaderRoundTrip | 04_arctic_hydrology/demo2_transient_column/py_script/obsRead.py:11-17 | A header of quoted, comma-separated column names reads back to exactly those names, when each has at least two characters and no quote. |
| LineScan.OneLetterColumnLost | 04_arctic_hydrology/demo2_transient_column/py_script/obsRead.py:13-16 | A one-letter column name is dropped from the header. |
| SourceSchedule.ToHours | models/notebooks/libs/ats_vis.py:626 | Each breakpoint in hours, times 3600, is the breakpoint in seconds. |
| SourceSchedule.Sweep | models/notebooks/libs/ats_vis.py:626-631 | The loop from interval i on succeeds exactly when no interval remains or every remaining interval has a value. A failure from a start at or below len(y) is the IndexError at index len(y). A success has one entry per observation time. |
| SourceSchedule.StepSchedule | models/notebooks/libs/ats_vis.py:622-632 | The result is Ok exactly when there is a value for every interval, and then has one entry per observation time. Otherwise it is the IndexError at the first missing value. |
| SourceSchedule.ScheduleIsLastCovering | models/notebooks/libs/ats_vis.py:626-631 | Each entry is y[j]*sfactor for the last interval j whose closed hour range holds the time, and 0 when none does. |
| SourceSchedule.LastValueUnused | models/notebooks/libs/ats_vis.py:629-630 | Values at index len(x)-1 and beyond never affect the schedule. |
| SourceSchedule.NoIntervalAllZero | models/notebooks/libs/ats_vis.py:624-631 | With fewer than two breakpoints, every entry is 0. |
| PickRegistry.Toggle | models/notebooks/libs/ats_vis.py:494-517 | A pick flips whether its key is labelled and leaves every other entry unchanged. A newly added key holds the plotter's label, with an add-label call. A removal calls remove-actor on the old label. |
| PickRegistry.ToggleTwiceAbsent | models/notebooks/libs/ats_vis.py:502-517 | Picking an unlabelled point twice restores the registry. |
| PickRegistry.ToggleTwicePresent | models/notebooks/libs/ats_vis.py:502-517 | Picking a labelled point twice restores its entry, now with the second label. |
| PickRegistry.LabelledIffOddPicks | models/notebooks/libs/ats_vis.py:499-517 | Starting from the empty registry, a point is labelled exactly when it has been picked an odd number of times. |
| PickRegistry.LabelFromLastPick | models/notebooks/libs/ats_vis.py:502-517 | A labelled point carries the label returned at its last pick. |
| MassBalance.MonthIndex | 05_debugging/plot_mass_balance.py:23-24 | The month index is the one whose day-of-year start is at or before the day and whose successor's start is after it. |
| MassBalance.FormatTick | 05_debugging/plot_mass_balance.py:22-27 | The label is the truncated value, the month containing the value modulo 365 (floored), and a day of month between 0 and 30. |
| MassBalance.FormatTickPeriodic | 05_debugging/plot_mass_balance.py:23-26 | Shifting a value by whole years keeps its month and day. |
| MassBalance.YearRemainderPeriodic | 05_debugging/plot_mass_balance.py:23 | `value % 365` does not change when whole years are added to the value. |
| MassBalance.FirstDaysShowDayZero | 05_debugging/plot_mass_balance.py:22-27 | The first day of a month is labelled day 0: 0.0 gives "Jan 0" and 31.0 gives "Feb 0". |
| MassBalance.ShownIndicesSound | 05_debugging/plot_mass_balance.py:19-20 | Every kept tick lies within days 275..640. |
| MassBalance.ShownIndicesComplete | 05_debugging/plot_mass_balance.py:19-20 | Every tick within days 275..640 is kept. |
| MassBalance.ShownIndicesIncreasing | 05_debugging/plot_mass_balance.py:19-20 | Kept ticks stay in their original order. |
| MassBalance.ShownTicks | 05_debugging/plot_mass_balance.py:20 | The k-th kept tick is the tick at the k-th kept position, so the result is the in-window ticks as an in-order subsequence with no duplicates added. Every kept tick lies in the window [275, 640], and every tick inside the window is kept. |
| MassBalance.ShownLabels | 05_debugging/plot_mass_balance.py:19-20 | For lists of equal length, the k-th kept pair is the month name and tick at the k-th kept position. So the labels kept by the zip-then-filter line up one-to-one with the kept ticks, each with its own month. |
| MassBalance.ShownTickLabels | 05_debugging/plot_mass_balance.py:16-20 | The ticks the window filter keeps are days 275, 336, 366, 426, 487, 548 and 610. The labels it keeps are Oct, Dec, Jan, Mar, May, Jul and Sep, each paired with its tick. |
| MassBalance.CumSum | 05_debugging/plot_mass_balance.py:13 | Entry k of the cumulative sum is the sum of the first k+1 entries. |
| MassBalance.BalanceError | 05_debugging/plot_mass_balance.py:13 | There is no error series exactly when storage is empty. Entry k is the net flux summed to k, minus the storage change since entry 0. |
| MassBalance.ErrorSteps | 05_debugging/plot_mass_balance.py:12-13 | The first error is the first net flux. From one row to the next, the error moves by the next net flux minus the next storage step. |
| MassBalance.ErrorZeroIffBalanced | 05_debugging/plot_mass_balance.py:12-13 | Every error is 0 exactly when each storage step equals the net flux. |
| Wrappers.Lookup | 05_debugging/plot_mass_balance.py:12 | A dictionary subscript succeeds exactly when the key is present and then yields that key's entry. Otherwise it fails with the given KeyError value. MassBalance.Get (the `data['P']`-style reads of both balance errors), MassBalance.Column (the required reads of `load`) and PlotParams.OptionOf go through it. |
| MassBalance.WaterBalanceError | 05_debugging/plot_mass_balance.py:12-13 | The result is Ok exactly when P, SM, ET, Q and water are present and there is at least one row. Each entry is the cumulative P+SM-ET-Q minus the change in water since the first row. |
| MassBalance.SnowBalanceError | 05_debugging/plot_mass_balance.py:74-85 | The result is Ok exactly when S, SM and snow are present and there is a row. The cumulative S-SM subtracts E_snow only when that series is present. |
| MassBalance.PanelCount | 05_debugging/plot_mass_balance.py:34-36 | Four panels exactly when "canopy water" is present, otherwise three. |
| MassBalance.CanopySeries | 05_debugging/plot_mass_balance.py:125-131 | Canopy water, I, D and E_can are added in order, up to the first missing column. Earlier entries and existing keys are kept. Canopy water is converted from moles. |
| MassBalance.AllRequiredIffNoneMissing | 05_debugging/plot_mass_balance.py:115-140 | The required columns are all present exactly when none is reported missing. |
| MassBalance.FirstMissingAt | 05_debugging/plot_mass_balance.py:115-140 | The first missing column is the one at the first index whose column is absent. |
| MassBalance.Load | 05_debugging/plot_mass_balance.py:114-140 | `load` fails on "time" when neither time column exists. Otherwise it fails on the first missing required column in reading order. Otherwise it returns the assembled series. |
| MassBalance.AssembledConversions | 05_debugging/plot_mass_balance.py:114-140 | Time falls back to the plain column. P, SM, ET and S are copied. Q, water and snow are moles converted with 55500 mol/m3 and the surface area. |
| MassBalance.AssembledOptionals | 05_debugging/plot_mass_balance.py:125-136 | The canopy series are a prefix of the four, cut at the first missing column. E_snow is present exactly when its column is. |
| MassBalance.FourPanelsIffCanopy | 05_debugging/plot_mass_balance.py:34-36 | Loaded data is plotted in four panels exactly when the canopy water column exists. |
| MassBalance.LoadedDataPlots | 05_debugging/plot_mass_balance.py:99-141 | Data that loads with at least one row gives both balance errors. |
| PlotParams.DataBound | 03_transport/libs/ats_vis.py:49-50 | A default bound is the floor of the minimum or the ceiling of the maximum. It is a whole number that bounds the data, and EmptyData when there is no data. |
| PlotParams.PanelBound | 03_transport/libs/ats_vis.py:49-50 | A supplied per-panel bound is used when present, even if 0. Otherwise the data bound is used. |
| PlotParams.ProfileBound | 03_transport/libs/ats_vis.py:141-150 | Only a truthy bound is used, so 0 and None fall back to the data bound. |
| PlotParams.ZeroBoundTreatment | 03_transport/libs/ats_vis.py:175-184 | A bound of 0 is kept by plot_subsurface but replaced by plot_profiles. |
| PlotParams.LogClamp | 03_transport/libs/ats_vis.py:54-57 | Under log scaling, cmin 0 becomes 1e-8 and cmax 0 becomes 10 * cmin. Every entry is at least cmin. An entry is unchanged exactly when it was at least cmin. |
| PlotParams.LogClampIdempotent | 03_transport/libs/ats_vis.py:187-190 | Clamping twice is clamping once. |
| PlotParams.NormRange | 03_transport/libs/ats_vis.py:58 | The LogNorm range exists exactly when some entry is positive. It runs from the smallest positive entry to the largest entry. |
| PlotParams.ClampedNormExists | 03_transport/libs/ats_vis.py:54-58 | After clamping with a non-negative cmin, non-empty data always has a LogNorm range. |
| PlotParams.SurfaceLimits | 03_transport/libs/ats_vis.py:151-171 | The lower y limit is always positive and at least 1e-10. With log scaling and no positive data the limits are (1e-10, 1e-5). Otherwise they are (max(cmin, 1e-10), cmax). |
| PlotParams.XLimit | 03_transport/libs/ats_vis.py:165-167 | The x limit exists exactly when there is data. It is the smallest multiple of 100 that is at least every x. |
| PlotParams.FindFirst | 03_transport/libs/ats_vis.py:163 | The position found holds the pattern, and no earlier position from the start does. None means the pattern occurs nowhere from the start. |
| PlotParams.RemoveFirst | 03_transport/libs/ats_vis.py:163 | A string without the pattern is unchanged. Otherwise the result is the pattern's length shorter, and putting the pattern back at its first occurrence gives the original string. |
| PlotParams.SurfaceLabel | 03_transport/libs/ats_vis.py:163 | A name without "surface-" is its own label. A name that starts with "surface-" loses exactly that prefix. |
| PlotParams.SurfaceLabelOfPrefixed | 03_transport/libs/ats_vis.py:163 | The label of "surface-" + rest is rest. |
| PlotParams.DefaultFileName | 03_transport/libs/ats_vis.py:243-247 | No domain gives ats_vis_data.h5. A domain d gives ats_vis_ + d + _data.h5. |
| PlotParams.DefaultFileNameInjective | 03_transport/libs/ats_vis.py:243-247 | Different domains get different file names. |
| PlotParams.JoinPath | 03_transport/libs/ats_vis.py:248 | An absolute name or empty directory gives the name unchanged. Otherwise the path starts with the directory and ends with the name, with one '/' added when the directory lacks it. |
| PlotParams.ResultPath | 03_transport/libs/ats_vis.py:243-248 | A given file name is joined as is. Otherwise the default name for the domain is joined. |
| PlotParams.Collect | 03_transport/libs/ats_vis.py:264-281 | The result is Ok exactly when every key is present, and then gives the values in key order. Otherwise it is MissingKey of the first missing key. |
| PlotParams.PlotGroup | 03_transport/libs/ats_vis.py:254-282 | A missing group is the MissingGroup error. A successful call names an existing group and passes exactly the thirteen merged keys and the three option keys. |
| PlotParams.PlotGroupSources | 03_transport/libs/ats_vis.py:254-282 | A missing group is MissingGroup. Group entries override options for the thirteen merged keys. aspect, height_ratios and plot_ponding always come from the options. The result is Ok exactly when all of them are found. |
| PlotParams.PlotGroupValues | 03_transport/libs/ats_vis.py:258-282 | A successful call names an existing group. The merged keys take the group value when present, else the options value. The three option keys take the options value. |
| PlotParams.PlotAllDomains | 03_transport/libs/ats_vis.py:285-300 | The result is Ok exactly when every group has the six per-panel keys and the options have the three shared ones. Each list is aligned with the groups. plot_ponding is passed as the list of group flags. |
| PlotParams.PondingOnFirstPanelOnly | 03_transport/libs/ats_vis.py:74 | Under plot_all_domains, ponding is drawn on panel k exactly when k is 0 and there is a group, whatever the groups' flags say. |
| PlotParams.PanelColormap | 03_transport/libs/ats_vis.py:48 | The per-panel colormap is cmap[k] when truthy and "jet" otherwise, and fails exactly when cmap[k] fails. |
| PlotParams.DefaultColormapSplits | 03_transport/libs/ats_vis.py:25-48 | With the default "jet", panels 0 and 1 ask for colormaps "j" and "e", and panel 3 is an IndexError. |
| PlotParams.PanelColormapCorrected | 03_transport/libs/ats_vis.py:48 | A single name applies to every panel. A list gives one name per panel, as in the code. |
| PlotParams.PanelLogScale | 03_transport/libs/ats_vis.py:51 | None gives False. Any other value is subscripted. |
| PlotParams.DefaultLogScalesFail | 03_transport/libs/ats_vis.py:32-51 | With the default False, every panel raises TypeError. |
| PlotParams.PanelLogScaleCorrected | 03_transport/libs/ats_vis.py:51 | A list gives one flag per panel. Any other value is one flag, its truthiness, for all panels. |
| PlotParams.CorrectedReadsAgreeOnLists | 03_transport/libs/ats_vis.py:291-296 | On the lists plot_all_domains passes, the corrected reads agree with the code. They never raise TypeError. |

## Left out

- File and library I/O is not modelled: h5py, pandas `read_csv`, the XML parsing of the source schedule, and `open` plus `linecache`. File contents are inputs: the mesh arrays, the column map, the file text, and the breakpoint and value lists.
- Drawing is not modelled: matplotlib, pyvista and shapely. `shapely.geometry.Polygon` is not modelled, including its rejection of rings with fewer than three coordinates, so a polygon is its coordinate ring.
- The unique-node table of models/notebooks/libs/ats_vis.py:74-80 is never used. It is kept only as its error condition: every value of the working table must index the node table.
- The `surf_area=None` branch of `load` is not modelled, because it reads the surface area from an HDF5 file. The area is a parameter.
- The scalar `data['surf_area']` entry (line 107 of plot_mass_balance.py) is not modelled, because the model's data map holds series only.
- MassBalance.Load: a zero `surf_area` is excluded (`surfArea != 0.0`, also on ToMetres and CanopySeries). Python divides by it at 05_debugging/plot_mass_balance.py:122-139 and gets inf or NaN columns rather than an exception, and real numbers have no such values.
- MassBalance.ShownTickLabels: the `xticks` and `xlabels` lists of 05_debugging/plot_mass_balance.py:16-20 are computed but never applied to an axis. Every axis uses `FuncFormatter(format_ticks)` with `MaxNLocator(integer=True)` instead. The `f"{xl} ({xd})"` label text is modelled as the pair (month, tick).
- MassBalance.FormatTick: the f-string text is modelled as its three parts: the whole value, the month name and the day.
- LineScan.SkipNumber: lines are split only at '\n'. Python's text mode also ends a line at a bare '\r' and turns "\r\n" into "\n"; that translation is not modelled, so the count is stated only for files whose line ends are '\n'.
- LineScan.ReadFile: the same universal-newline translation of `open(..., 'r')` is not modelled. The comment count and the header line are stated only for files whose line ends are '\n'.
- MassBalance.ErrorSteps: the "delta error" drawn at 05_debugging/plot_mass_balance.py:65 is not modelled. There `error[1:] - error[:-1]` subtracts two pandas Series aligned by index label, which gives NaN at both ends and 0 in between. It does not give the step-to-step differences; ErrorSteps states those as a fact about the balance error of lines 12-13.
- LineScan.GetLine: only lines that end in a newline are stated exactly. `linecache` appends a missing final newline, and its universal-newline handling of "\r\n" is not modelled.
- DataBound: `np.nanmin`/`np.nanmax` skip NaN. Reals have no NaN, so the model takes plain minima and maxima.
- SourceSchedule.StepSchedule: the `strip('{}').split(',')` parsing of the breakpoint and value strings is not modelled. The two lists are inputs.
- PlotParams.PlotAllDomains: when several keys are missing, the error names one missing key but is not said to be the first Python would hit.
- PlotParams.SurfaceLimits: the `is None` branches at lines 154-155 are dead, because by then `cmin` and `cmax` are numbers. The model gives those branches no separate case.
- `plot_profiles`' `cmap if cmap else 'jet'` (line 174) is not given a member of its own. It is the Text case of PanelColormapCorrected.
- `plot_field_timeseries`, `plot_observations.py` and `01_flow/open_book/widgets.py` are not modelled, because they draw or build widgets. The mermaid slide scripts are not modelled, because they are browser JavaScript.
- The notebook checkpoint copy of the transport library (03_transport/libs/.ipynb_checkpoints/ats_vis-checkpoint.py) is an older, different module. Its `get_skip_number` and its two XML helpers match the modelled ones and are covered by LineScan.SkipNumber and SourceSchedule.StepSchedule. Its own `plot_subsurface`, with a different figure-size rule, and its `plot_field_timeseries` are not modelled. It has no `plot_profiles`, `plot_group` or `plot_all_domains`.
- Each of the two copies of `get_skip_number` is modelled by LineScan.SkipNumber.
- The pandas series are indexed by position, matching the default RangeIndex that `read_csv` produces.

## Findings

| source | as written | input that shows it | evidently intended | confidence | as-written member | corrected member |
|---|---|---|---|---|---|---|
| 03_transport/libs/ats_vis.py:51 | `log_scale = log_scales[k] if log_scales is not None else False`, with the default `log_scales=False` (line 32) | `plot_subsurface(...)` called without `log_scales`: `False[0]` raises TypeError | the default False means "no panel is log-scaled" | high; not executed | PlotParams.PanelLogScale (PlotParams.DefaultLogScalesFail) | PlotParams.PanelLogScaleCorrected (PlotParams.CorrectedReadsAgreeOnLists) |
| 03_transport/libs/ats_vis.py:48 | `colormap = cmap[k] if cmap[k] else 'jet'`, with the default `cmap="jet"` (line 25) | `plot_subsurface(...)` with the default colormap: panel 0 asks matplotlib for colormap "j" | a single name applies to every panel | high; not executed | PlotParams.PanelColormap (PlotParams.DefaultColormapSplits) | PlotParams.PanelColormapCorrected (PlotParams.CorrectedReadsAgreeOnLists) |

=== FILE: field_range.dfy ===
/** The colour-range check of `PlotPolygonsFields` and the colormap table of
    `get_cmap` (models/notebooks/libs/ats_vis.py:101-190).  Drawing is not
    modelled: only how the colour bounds and the colormap are chosen. */
module FieldRange {
  import opened Wrappers
  import opened Stats

  datatype RangeError =
    /** `len(polygons) != len(field)` (the ValueError of line 108). */
    | LengthMismatch
    /** `min(field)` or `max(field)` on an empty field (ValueError). */
    | EmptyField

  /** The colour bounds used by `PlotPolygonsFields` (lines 107-115): a
      missing bound defaults to the field's extreme, and an inverted pair is
      repaired by doubling the lower bound.  The fill colours themselves are
      drawing and are not modelled. */
  function ColorRange(polygonCount: nat, field: seq<real>, vmin: Option<real>, vmax: Option<real>)
    : (r: Result<(real, real), RangeError>)
    ensures polygonCount != |field| <==> r == Err(LengthMismatch)
    ensures r == Err(EmptyField) <==> polygonCount == |field| == 0 && (vmin.None? || vmax.None?)
    ensures r.Ok? && vmin.Some? ==> r.value.0 == vmin.value
    ensures r.Ok? && vmin.None? ==> r.value.0 in field && forall i :: 0 <= i < |field| ==> r.value.0 <= field[i]
    ensures r.Ok? ==> var upper := if vmax.Some? then vmax.value else Max(field);
      && (upper < r.value.0 ==> r.value.1 == 2.0 * r.value.0)
      && (r.value.0 <= upper ==> r.value.1 == upper)
  {
    if polygonCount != |field| then Err(LengthMismatch)
    else if |field| == 0 && (vmin.None? || vmax.None?) then Err(EmptyField)
    else
      var lo := if vmin.Some? then vmin.value else Min(field);
      var hi := if vmax.Some? then vmax.value else Max(field);
      Ok((lo, if hi < lo then lo * 2.0 else hi))
  }

  /** The repair of line 115 only restores `vmin <= vmax` when `vmin` is not
      negative: a negative lower bound with a smaller upper bound stays
      inverted, since twice a negative number is smaller still. */
  lemma RangeOrdered(polygonCount: nat, field: seq<real>, vmin: Option<real>, vmax: Option<real>)
    requires ColorRange(polygonCount, field, vmin, vmax).Ok?
    ensures var (lo, hi) := ColorRange(polygonCount, field, vmin, vmax).value;
      var upper := if vmax.Some? then vmax.value else Max(field);
      (lo <= hi <==> 0.0 <= lo || lo <= upper)
  {
  }

  /** With both bounds defaulted the range is the field's own span, which is never inverted. */
  lemma DefaultRangeSpansField(field: seq<real>)
    requires |field| > 0
    ensures ColorRange(|field|, field, None, None).Ok?
    ensures var (lo, hi) := ColorRange(|field|, field, None, None).value;
      lo <= hi && forall i :: 0 <= i < |field| ==> lo <= field[i] <= hi
  {
  }

  /** What `get_cmap` is called with: a variable name, or a list of names
      (the product panels of `plot_surface`). */
  datatype VariableKey = Name(name: string) | NameList(names: seq<string>)

  /** The colormaps the table can answer: a matplotlib name or one of the two
      colorcet maps. */
  datatype Colormap = Named(name: string) | CetL17 | CetR4

  const DefaultColormap: Colormap := Named("jet")

  /** The five-entry table of lines 183-189. */
  const ColormapTable: map<string, Colormap> := map[
    "elevation" := Named("terrain"),
    "ponded_depth" := CetL17,
    "surface_subsurface_flux" := Named("seismic"),
    "pressure" := CetR4,
    "pres_elev" := CetR4
  ]

  /** `get_cmap` (lines 169-190). */
  function GetCmap(key: VariableKey): (c: Colormap)
    ensures c == DefaultColormap <==> key.NameList? || key.name !in ColormapTable
    ensures key.Name? && key.name in ColormapTable ==> c == ColormapTable[key.name]
  {
    if key.NameList? then DefaultColormap
    else if key.name in ColormapTable then ColormapTable[key.name]
    else DefaultColormap
  }
}

=== FILE: line_scan.dfy ===
/** Comment-line scanning over the text of a data file:
    `get_skip_number` (identical in models/notebooks/libs/ats_vis.py:163-166
    and 03_transport/libs/ats_vis.py:12-15) and `read_file` of
    04_arctic_hydrology/demo2_transient_column/py_script/obsRead.py:3-17.
    A file is given by its text; reading it is not modelled. */
module LineScan {

  const Newline: char := '\n'
  const CommentMark: char := '#'
  const Quote: char := '"'

  // ---------------------------------------------------------------------
  // Lines, as iterating over a text file yields them.

  /** Length of the first line of `text`, its newline included. */
  function FirstLineLength(text: string): (k: nat)
    requires |text| > 0
    ensures 1 <= k <= |text|
    ensures Newline !in text[..k - 1]
    ensures text[k - 1] == Newline || k == |text|
  {
    if text[0] == Newline || |text| == 1 then 1
    else
      var k := 1 + FirstLineLength(text[1..]);
      assert text[1..][..k - 2] == text[1..k - 1];
      k
  }

  /** The lines of `text`, each keeping its newline; a last line without a
      newline is still a line, and an empty text has none. */
  function Lines(text: string): (lines: seq<string>)
    decreases |text|
    ensures forall i :: 0 <= i < |lines| ==> |lines[i]| > 0
  {
    if |text| == 0 then []
    else
      var k := FirstLineLength(text);
      [text[..k]] + Lines(text[k..])
  }

  function Concat(lines: seq<string>): string
  {
    if |lines| == 0 then [] else lines[0] + Concat(lines[1..])
  }

  /** A line in the sense of `Lines`: non-empty, with a newline only at its end. */
  predicate WellFormedLine(line: string)
  {
    |line| > 0 && Newline !in line[..|line| - 1]
  }

  /** Splitting into lines loses nothing: joining the lines gives the text back. */
  lemma {:induction false} LinesConcat(text: string)
    decreases |text|
    ensures Concat(Lines(text)) == text
  {
    if |text| > 0 {
      var k := FirstLineLength(text);
      LinesConcat(text[k..]);
      assert Lines(text)[1..] == Lines(text[k..]);
      assert text[..k] + text[k..] == text;
    }
  }

  /** Every line is well formed, and every line but the last ends in a newline. */
  lemma {:induction false} LinesShape(text: string)
    decreases |text|
    ensures forall i :: 0 <= i < |Lines(text)| ==> WellFormedLine(Lines(text)[i])
    ensures forall i :: 0 <= i < |Lines(text)| - 1 ==> Lines(text)[i][|Lines(text)[i]| - 1] == Newline
  {
    if |text| > 0 {
      var k := FirstLineLength(text);
      var lines := Lines(text);
      LinesShape(text[k..]);
      assert lines[1..] == Lines(text[k..]);
      assert lines[0] == text[..k];
      assert lines[0][..k - 1] == text[..k - 1];
      assert |lines| > 1 ==> k < |text|;
      forall i | 0 <= i < |lines|
        ensures WellFormedLine(lines[i])
      {
        if i > 0 { assert lines[i] == Lines(text[k..])[i - 1]; }
      }
      forall i | 0 <= i < |lines| - 1
        ensures lines[i][|lines[i]| - 1] == Newline
      {
        if i > 0 { assert lines[i] == Lines(text[k..])[i - 1]; }
      }
    }
  }

  // ---------------------------------------------------------------------
  // Counting comment lines.

  /** `line.startswith('#')`; for the non-empty lines of a file this is also `line[0] == '#'`. */
  predicate IsComment(line: string)
  {
    |line| > 0 && line[0] == CommentMark
  }

  function CountComments(lines: seq<string>): (n: nat)
    ensures n <= |lines|
  {
    if |lines| == 0 then 0
    else (if IsComment(lines[0]) then 1 else 0) + CountComments(lines[1..])
  }

  /** Counting comment lines is additive over a split of the lines, so the
      count is the number of comment lines wherever they appear, not only in
      a leading block. */
  lemma {:induction false} CountCommentsAppend(a: seq<string>, b: seq<string>)
    decreases |a|
    ensures CountComments(a + b) == CountComments(a) + CountComments(b)
  {
    if |a| == 0 {
      assert a + b == b;
    } else {
      CountCommentsAppend(a[1..], b);
      assert (a + b)[1..] == a[1..] + b;
    }
  }

  lemma CountOneLine(line: string)
    ensures CountComments([line]) == if IsComment(line) then 1 else 0
  {
    assert [line][1..] == [];
  }

  /** `get_skip_number`: the number of lines of the file that start with '#'. */
  function SkipNumber(text: string): (n: nat)
    ensures n <= |Lines(text)|
    ensures n == |Lines(text)| <==> forall i :: 0 <= i < |Lines(text)| ==> IsComment(Lines(text)[i])
  {
    AllCommentsIff(Lines(text));
    CountComments(Lines(text))
  }

  lemma {:induction false} AllCommentsIff(lines: seq<string>)
    ensures CountComments(lines) == |lines| <==> forall i :: 0 <= i < |lines| ==> IsComment(lines[i])
  {
    if |lines| > 0 {
      AllCommentsIff(lines[1..]);
      assert forall i :: 1 <= i < |lines| ==> lines[i] == lines[1..][i - 1];
    }
  }

  // ---------------------------------------------------------------------
  // `read_file`: the comment count and the quoted header.

  /** Python's `s.split(sep)` for a one-character separator: the pieces
      between separators, one more than there are separators. */
  function Split(s: string, sep: char): (pieces: seq<string>)
    ensures |pieces| > 0
    ensures forall i :: 0 <= i < |pieces| ==> sep !in pieces[i]
  {
    if |s| == 0 then [""]
    else
      var rest := Split(s[1..], sep);
      if s[0] == sep then [""] + rest
      else [[s[0]] + rest[0]] + rest[1..]
  }

  /** The inverse of `Split`: the pieces glued back with the separator. */
  function Join(pieces: seq<string>, sep: char): string
    requires |pieces| > 0
  {
    if |pieces| == 1 then pieces[0] else pieces[0] + [sep] + Join(pieces[1..], sep)
  }

  lemma {:induction false} SplitJoin(s: string, sep: char)
    ensures Join(Split(s, sep), sep) == s
  {
    if |s| > 0 {
      var rest := Split(s[1..], sep);
      SplitJoin(s[1..], sep);
      if s[0] == sep {
        assert Split(s, sep)[1..] == rest;
        assert s == [s[0]] + s[1..];
      } else {
        var pieces := Split(s, sep);
        assert pieces[1..] == rest[1..];
        if |rest| == 1 {
          assert Join(pieces, sep) == [s[0]] + rest[0];
        } else {
          assert Join(rest, sep) == rest[0] + [sep] + Join(rest[1..], sep);
        }
        assert s == [s[0]] + s[1..];
      }
    }
  }

  /** Lines 13-15: every one-character piece is blanked. */
  function BlankSingles(pieces: seq<string>): (out: seq<string>)
    ensures |out| == |pieces|
    ensures forall i :: 0 <= i < |pieces| ==> out[i] == if |pieces[i]| == 1 then "" else pieces[i]
  {
    seq(|pieces|, i requires 0 <= i < |pieces| => if |pieces[i]| == 1 then "" else pieces[i])
  }

  /** Line 16, `filter(None, ...)`: the empty strings are dropped. */
  function DropEmpty(pieces: seq<string>): (out: seq<string>)
    ensures forall i :: 0 <= i < |out| ==> |out[i]| > 0
  {
    if |pieces| == 0 then []
    else if |pieces[0]| == 0 then DropEmpty(pieces[1..])
    else [pieces[0]] + DropEmpty(pieces[1..])
  }

  /** The pieces of length at least two, in their original order. */
  function LongPieces(pieces: seq<string>): (out: seq<string>)
    ensures forall i :: 0 <= i < |out| ==> |out[i]| >= 2
  {
    if |pieces| == 0 then []
    else if |pieces[0]| < 2 then LongPieces(pieces[1..])
    else [pieces[0]] + LongPieces(pieces[1..])
  }

  /** Blanking the one-character pieces and then dropping the empty ones
      keeps exactly the pieces of two or more characters, in order. */
  lemma {:induction false} BlankThenDrop(pieces: seq<string>)
    ensures DropEmpty(BlankSingles(pieces)) == LongPieces(pieces)
  {
    if |pieces| > 0 {
      BlankThenDrop(pieces[1..]);
      assert BlankSingles(pieces)[1..] == BlankSingles(pieces[1..]);
    }
  }

  /** `linecache.getline(filename, n)`: the n-th line (1-based), with a
      newline added to a last line that has none, or "" when there is no
      such line. */
  function GetLine(lines: seq<string>, n: int): (line: string)
    ensures 1 <= n <= |lines| && |lines[n - 1]| > 0 && lines[n - 1][|lines[n - 1]| - 1] == Newline ==> line == lines[n - 1]
    ensures !(1 <= n <= |lines|) ==> line == ""
  {
    if 1 <= n <= |lines| then
      var l := lines[n - 1];
      if |l| > 0 && l[|l| - 1] == Newline then l else l + [Newline]
    else ""
  }

  /** `read_file` (obsRead.py:3-17): the number of comment lines plus one,
      and the quoted column names of the line at that position. */
  function ReadFile(text: string): (r: (nat, seq<string>))
    ensures r.0 == SkipNumber(text) + 1
    ensures r.0 >= 1
    ensures r.1 == LongPieces(Split(GetLine(Lines(text), r.0), Quote))
    ensures forall i :: 0 <= i < |r.1| ==> |r.1[i]| >= 2 && Quote !in r.1[i]
  {
    var count := CountComments(Lines(text)) + 1;
    var pieces := Split(GetLine(Lines(text), count), Quote);
    BlankThenDrop(pieces);
    LongPiecesFrom(pieces);
    (count, DropEmpty(BlankSingles(pieces)))
  }

  /** Every piece kept by `LongPieces` is one of its input pieces. */
  lemma {:induction false} LongPiecesFrom(pieces: seq<string>)
    ensures forall i :: 0 <= i < |LongPieces(pieces)| ==> LongPieces(pieces)[i] in pieces
  {
    if |pieces| > 0 {
      LongPiecesFrom(pieces[1..]);
      assert forall p :: p in pieces[1..] ==> p in pieces;
    }
  }

  /** For a file that opens with a block of k comment lines and has no
      other comment line, the header is read from line k + 1, the first
      line after the block. */
  lemma HeaderAfterCommentBlock(text: string, k: nat)
    requires k < |Lines(text)|
    requires forall i :: 0 <= i < |Lines(text)| ==> (IsComment(Lines(text)[i]) <==> i < k)
    ensures ReadFile(text).0 == k + 1
    ensures ReadFile(text).1 == LongPieces(Split(GetLine(Lines(text), k + 1), Quote))
  {
    CommentBlockCount(Lines(text), k);
  }

  /** Lines whose comments are exactly the first k hold k comment lines. */
  lemma CommentBlockCount(lines: seq<string>, k: nat)
    requires k <= |lines|
    requires forall i :: 0 <= i < |lines| ==> (IsComment(lines[i]) <==> i < k)
    ensures CountComments(lines) == k
  {
    CountCommentsAppend(lines[..k], lines[k..]);
    assert lines[..k] + lines[k..] == lines;
    AllCommentsIff(lines[..k]);
    NoComments(lines[k..]);
  }

  lemma {:induction false} NoComments(lines: seq<string>)
    requires forall i :: 0 <= i < |lines| ==> !IsComment(lines[i])
    ensures CountComments(lines) == 0
  {
    if |lines| > 0 {
      NoComments(lines[1..]);
    }
  }

  lemma SplitCons(c: char, s: string, sep: char)
    ensures Split([c] + s, sep) ==
      if c == sep then [""] + Split(s, sep) else [[c] + Split(s, sep)[0]] + Split(s, sep)[1..]
  {
    assert ([c] + s)[1..] == s;
  }

  /** Splitting undoes joining when no piece holds the separator. */
  lemma {:induction false} JoinSplit(pieces: seq<string>, sep: char)
    requires |pieces| > 0
    requires forall i :: 0 <= i < |pieces| ==> sep !in pieces[i]
    ensures Split(Join(pieces, sep), sep) == pieces
  {
    if |pieces| == 1 {
      SplitPlain(pieces[0], sep);
    } else {
      JoinSplit(pieces[1..], sep);
      SplitAfterPlain(pieces[0], Join(pieces[1..], sep), sep);
      assert pieces == [pieces[0]] + pieces[1..];
    }
  }

  /** A string without the separator is a single piece. */
  lemma {:induction false} SplitPlain(a: string, sep: char)
    requires sep !in a
    ensures Split(a, sep) == [a]
  {
    if |a| > 0 {
      SplitPlain(a[1..], sep);
      assert a == [a[0]] + a[1..];
    }
  }

  /** A separator-free prefix followed by a separator is a piece of its own. */
  lemma {:induction false} SplitAfterPlain(a: string, b: string, sep: char)
    requires sep !in a
    ensures Split(a + [sep] + b, sep) == [a] + Split(b, sep)
  {
    if |a| == 0 {
      assert a + [sep] + b == [sep] + b;
      SplitCons(sep, b, sep);
    } else {
      SplitAfterPlain(a[1..], b, sep);
      assert a + [sep] + b == [a[0]] + (a[1..] + [sep] + b);
      SplitCons(a[0], a[1..] + [sep] + b, sep);
      assert [a[0]] + a[1..] == a;
    }
  }

  lemma {:induction false} LongPiecesAppend(a: seq<string>, b: seq<string>)
    ensures LongPieces(a + b) == LongPieces(a) + LongPieces(b)
  {
    if |a| > 0 {
      LongPiecesAppend(a[1..], b);
      assert (a + b)[1..] == a[1..] + b;
    } else {
      assert a + b == b;
    }
  }

  /** Column names separated by commas, as the pieces between quotes. */
  function CommaSeparated(names: seq<string>): (pieces: seq<string>)
    ensures |names| > 0 ==> |pieces| == 2 * |names| - 1
  {
    if |names| <= 1 then names else [names[0], ","] + CommaSeparated(names[1..])
  }

  /** The header line of a file whose column names are written in quotes,
      separated by commas: `"a","b",..."z"` and a newline. */
  function QuotedHeader(names: seq<string>): string
  {
    Join([""] + CommaSeparated(names) + ["\n"], Quote)
  }

  lemma {:induction false} LongCommaSeparated(names: seq<string>)
    requires forall i :: 0 <= i < |names| ==> |names[i]| >= 2
    ensures LongPieces(CommaSeparated(names)) == names
  {
    if |names| > 1 {
      LongCommaSeparated(names[1..]);
      LongPiecesAppend([names[0], ","], CommaSeparated(names[1..]));
      assert [names[0], ","][1..] == [","];
      assert LongPieces([names[0], ","]) == [names[0]];
    } else if |names| == 1 {
      assert names == [names[0]];
    }
  }

  /** The header is read back exactly when every column name has at least
      two characters and no quote; a one-character name would be blanked
      like a separator. */
  lemma QuotedHeaderRoundTrip(names: seq<string>)
    requires forall i :: 0 <= i < |names| ==> |names[i]| >= 2 && Quote !in names[i]
    ensures LongPieces(Split(QuotedHeader(names), Quote)) == names
  {
    var pieces := [""] + CommaSeparated(names) + ["\n"];
    CommaSeparatedPlain(names);
    JoinSplit(pieces, Quote);
    LongCommaSeparated(names);
    LongPiecesAppend([""] + CommaSeparated(names), ["\n"]);
    LongPiecesAppend([""], CommaSeparated(names));
    assert LongPieces(["\n"]) == [];
    assert LongPieces([""]) == [];
  }

  lemma {:induction false} CommaSeparatedPlain(names: seq<string>)
    requires forall i :: 0 <= i < |names| ==> Quote !in names[i]
    ensures forall i :: 0 <= i < |CommaSeparated(names)| ==> Quote !in CommaSeparated(names)[i]
  {
    if |names| > 1 {
      CommaSeparatedPlain(names[1..]);
    }
  }

  /** A one-letter column name is lost: for the columns "time" and "T" only "time" is read. */
  lemma OneLetterColumnLost()
    ensures LongPieces(Split(QuotedHeader(["time", "T"]), Quote)) == ["time"]
  {
    var pieces := ["", "time", ",", "T", "\n"];
    assert CommaSeparated(["time", "T"]) == ["time", ",", "T"];
    assert [""] + CommaSeparated(["time", "T"]) + ["\n"] == pieces;
    assert forall i :: 0 <= i < |pieces| ==> Quote !in pieces[i];
    JoinSplit(pieces, Quote);
  }
}

=== FILE: mass_balance.dfy ===
/** The bookkeeping of 05_debugging/plot_mass_balance.py: the day-of-year
    tick formatter and tick filtering, the cumulative water and snow
    balance errors of `plot`, and the column mapping and unit conversion of
    `load`.  A data frame is a map from column name to a column of reals, all
    columns of one length; the CSV and HDF5 reading and all drawing are not
    modelled. */
module MassBalance {
  import opened Wrappers
  import opened Stats

  // ---------------------------------------------------------------------
  // Calendar ticks (lines 8-27).

  const Months: seq<Option<string>> := [
    Some("Jan"), Some("Feb"), Some("Mar"), Some("Apr"), Some("May"), Some("Jun"),
    Some("Jul"), Some("Aug"), Some("Sep"), Some("Oct"), Some("Nov"), Some("Dec"), None]

  /** First day of each month, counted from 1; the last entry closes December. */
  const JulDoy: seq<int> := [1, 32, 61, 92, 122, 153, 183, 214, 245, 275, 306, 336, 366]

  const DaysPerYear: int := 365

  /** The floored remainder of Python's `value % 365` on a float. */
  function YearRemainder(value: real): (m: real)
    ensures 0.0 <= m < DaysPerYear as real
    ensures (value - m) / DaysPerYear as real == Floor(value / DaysPerYear as real) as real
  {
    value - DaysPerYear as real * Floor(value / DaysPerYear as real) as real
  }

  /** The generator `next(i for i in range(13) if jul_doy[i] > v)`, searching from `i`. */
  function FirstStartAfter(v: real, i: nat): (j: nat)
    requires i <= 12 && v < JulDoy[12] as real
    ensures i <= j <= 12 && v < JulDoy[j] as real
    ensures forall k :: i <= k < j ==> JulDoy[k] as real <= v
    decreases 12 - i
  {
    if v < JulDoy[i] as real then i else FirstStartAfter(v, i + 1)
  }

  /** Line 24: the month of a tick value, found by a search that always
      succeeds because `jul_doy[12]` is 366. */
  function MonthIndex(value: real): (i: nat)
    ensures i < 12
    ensures JulDoy[i] as real <= YearRemainder(value) + 1.0 < JulDoy[i + 1] as real
  {
    var v := YearRemainder(value) + 1.0;
    var j := FirstStartAfter(v, 0);
    assert j != 0;
    j - 1
  }

  /** The parts of the label `f"{int(value)} ({mo} {mo_dy})"`. */
  datatype TickText = TickText(whole: int, month: string, day: int)

  /** `format_ticks` (lines 22-27). The day of the month counts from 0. */
  function FormatTick(value: real): (t: TickText)
    ensures t.whole == Trunc(value)
    ensures 0 <= t.day <= 30
    ensures Months[MonthIndex(value)] == Some(t.month)
    ensures t.day as real <= YearRemainder(value) + 1.0 - JulDoy[MonthIndex(value)] as real < t.day as real + 1.0
  {
    var i := MonthIndex(value);
    var m := YearRemainder(value);
    TickText(Trunc(value), Months[i].value, Floor(m + 1.0 - JulDoy[i] as real))
  }

  /** A value and the same value a whole number of years later get the same month and day. */
  lemma FormatTickPeriodic(value: real, years: int)
    ensures var a := FormatTick(value); var b := FormatTick(value + (DaysPerYear * years) as real);
      a.month == b.month && a.day == b.day
  {
    var shifted := value + (DaysPerYear * years) as real;
    YearRemainderPeriodic(value, years);
    SameRemainderSameDay(value, shifted);
  }

  /** Month and day depend on the value only through its remainder of a year. */
  lemma SameRemainderSameDay(a: real, b: real)
    requires YearRemainder(a) == YearRemainder(b)
    ensures FormatTick(a).month == FormatTick(b).month && FormatTick(a).day == FormatTick(b).day
  {
    assert MonthIndex(a) == MonthIndex(b);
  }

  /** The remainder of a year does not change when whole years are added. */
  lemma YearRemainderPeriodic(value: real, years: int)
    ensures YearRemainder(value + (DaysPerYear * years) as real) == YearRemainder(value)
  {
    var shifted := value + (DaysPerYear * years) as real;
    assert shifted / DaysPerYear as real == value / DaysPerYear as real + years as real;
    FloorShift(value / DaysPerYear as real, years);
  }

  lemma FloorShift(x: real, k: int)
    ensures Floor(x + k as real) == Floor(x) + k
  {
  }

  /** Day one of January is shown as "0 (Jan 0)", and the first of February as "31 (Feb 0)". */
  lemma FirstDaysShowDayZero()
    ensures FormatTick(0.0) == TickText(0, "Jan", 0)
    ensures FormatTick(31.0) == TickText(31, "Feb", 0)
  {
    assert YearRemainder(0.0) == 0.0;
    assert MonthIndex(0.0) == 0;
    assert YearRemainder(31.0) == 31.0;
    assert MonthIndex(31.0) == 1;
  }

  /** `s[1::2]`: the entries at odd positions. */
  function OddEntries<T>(s: seq<T>): (r: seq<T>)
    ensures |r| == |s| / 2
    ensures forall k :: 0 <= k < |r| ==> r[k] == s[2 * k + 1]
  {
    seq(|s| / 2, k requires 0 <= k < |s| / 2 => s[2 * k + 1])
  }

  function Shift(s: seq<int>, d: int): (r: seq<int>)
    ensures |r| == |s| && forall k :: 0 <= k < |s| ==> r[k] == s[k] + d
  {
    seq(|s|, k requires 0 <= k < |s| => s[k] + d)
  }

  /** Line 16: month starts of two consecutive years, every second one. */
  function TickPositions(): seq<int>
  {
    OddEntries(JulDoy + Shift(JulDoy, DaysPerYear))
  }

  /** Line 17: the month names that go with them. */
  function TickMonths(): seq<Option<string>>
  {
    OddEntries(Months + Months)
  }

  const FirstShownDay: int := 275
  const LastShownDay: int := 275 + 365

  predicate Shown(tick: int)
  {
    FirstShownDay <= tick <= LastShownDay
  }

  /** The positions, from `from` on, of the ticks inside the window, in order. */
  function ShownIndices(ticks: seq<int>, from: nat): seq<nat>
    decreases |ticks| - from
  {
    if from >= |ticks| then []
    else (if Shown(ticks[from]) then [from] else []) + ShownIndices(ticks, from + 1)
  }

  /** Every kept position is at or after `from` and holds a tick inside the window. */
  lemma {:induction false} ShownIndicesSound(ticks: seq<int>, from: nat)
    ensures forall k :: 0 <= k < |ShownIndices(ticks, from)| ==>
      from <= ShownIndices(ticks, from)[k] < |ticks| && Shown(ticks[ShownIndices(ticks, from)[k]])
    decreases |ticks| - from
  {
    if from < |ticks| {
      ShownIndicesSound(ticks, from + 1);
      var rest := ShownIndices(ticks, from + 1);
      if Shown(ticks[from]) {
        assert ShownIndices(ticks, from) == [from] + rest;
      } else {
        assert ShownIndices(ticks, from) == rest;
      }
    }
  }

  /** At most one position is kept per tick. */
  lemma {:induction false} ShownIndicesFit(ticks: seq<int>, from: nat)
    ensures |ShownIndices(ticks, from)| <= if from <= |ticks| then |ticks| - from else 0
    decreases |ticks| - from
  {
    if from < |ticks| {
      ShownIndicesFit(ticks, from + 1);
    }
  }

  /** The kept positions keep the order of the ticks. */
  lemma {:induction false} ShownIndicesIncreasing(ticks: seq<int>, from: nat)
    ensures forall k, l :: 0 <= k < l < |ShownIndices(ticks, from)| ==>
      ShownIndices(ticks, from)[k] < ShownIndices(ticks, from)[l]
    decreases |ticks| - from
  {
    if from < |ticks| {
      ShownIndicesIncreasing(ticks, from + 1);
      ShownIndicesSound(ticks, from + 1);
      var rest := ShownIndices(ticks, from + 1);
      if Shown(ticks[from]) {
        var r := [from] + rest;
        assert ShownIndices(ticks, from) == r;
        assert forall k :: 1 <= k < |r| ==> r[k] == rest[k - 1];
      } else {
        assert ShownIndices(ticks, from) == rest;
      }
    }
  }

  /** No tick inside the window at or after `from` is left out. */
  lemma {:induction false} ShownIndicesComplete(ticks: seq<int>, from: nat)
    ensures forall i :: from <= i < |ticks| && Shown(ticks[i]) ==> i in ShownIndices(ticks, from)
    decreases |ticks| - from
  {
    if from < |ticks| {
      ShownIndicesComplete(ticks, from + 1);
      var rest := ShownIndices(ticks, from + 1);
      if Shown(ticks[from]) {
        assert ShownIndices(ticks, from) == [from] + rest;
      } else {
        assert ShownIndices(ticks, from) == rest;
      }
    }
  }

  /** Line 20: the ticks inside the shown window, in their order. */
  function ShownTicks(ticks: seq<int>): (r: seq<int>)
    ensures |r| <= |ticks|
    ensures forall k :: 0 <= k < |r| ==> Shown(r[k]) && r[k] in ticks
    ensures forall i :: 0 <= i < |ticks| && Shown(ticks[i]) ==> ticks[i] in r
    ensures var ix := ShownIndices(ticks, 0);
      |r| == |ix| && forall k :: 0 <= k < |r| ==> ix[k] < |ticks| && r[k] == ticks[ix[k]]
  {
    var ix := ShownIndices(ticks, 0);
    ShownIndicesSound(ticks, 0);
    ShownIndicesComplete(ticks, 0);
    ShownIndicesIncreasing(ticks, 0);
    ShownIndicesFit(ticks, 0);
    assert forall k :: 0 <= k < |ix| ==> ix[k] < |ticks|;
    var r := seq(|ix|, k requires 0 <= k < |ix| => ticks[ix[k]]);
    assert forall i :: 0 <= i < |ticks| && Shown(ticks[i]) ==> ticks[i] in r by {
      forall i | 0 <= i < |ticks| && Shown(ticks[i]) ensures ticks[i] in r {
        var k :| 0 <= k < |ix| && ix[k] == i;
        assert r[k] == ticks[i];
      }
    }
    r
  }

  /** Line 19: `zip` the ticks with the month names, keeping the pairs
      (name, tick) whose tick is inside the window.  For lists of one length
      the k-th label belongs to the k-th kept tick. */
  function ShownLabels(ticks: seq<int>, months: seq<Option<string>>): (r: seq<(Option<string>, int)>)
    ensures forall k :: 0 <= k < |r| ==> Shown(r[k].1)
    ensures |ticks| == |months| ==>
      |r| == |ShownTicks(ticks)| && forall k :: 0 <= k < |r| ==> r[k].1 == ShownTicks(ticks)[k]
    ensures |ticks| == |months| ==>
      var ix := ShownIndices(ticks, 0);
      |r| == |ix| && forall k :: 0 <= k < |r| ==> ix[k] < |ticks| && r[k] == (months[ix[k]], ticks[ix[k]])
  {
    var paired := ticks[..if |ticks| <= |months| then |ticks| else |months|];
    var ix := ShownIndices(paired, 0);
    ShownIndicesSound(paired, 0);
    assert forall k :: 0 <= k < |ix| ==> ix[k] < |paired| <= |months|;
    assert |ticks| == |months| ==> paired == ticks;
    seq(|ix|, k requires 0 <= k < |ix| => (months[ix[k]], paired[ix[k]]))
  }

  lemma TickPositionsValue()
    ensures TickPositions() == [32, 92, 153, 214, 275, 336, 366, 426, 487, 548, 610, 671, 731]
  {
  }

  lemma TickMonthsValue()
    ensures TickMonths() == [Some("Feb"), Some("Apr"), Some("Jun"), Some("Aug"), Some("Oct"), Some("Dec"),
      Some("Jan"), Some("Mar"), Some("May"), Some("Jul"), Some("Sep"), Some("Nov"), None]
  {
  }

  /** Of the thirteen tick positions, the five through eleventh are inside the window. */
  lemma ShownIndicesValue()
    ensures ShownIndices([32, 92, 153, 214, 275, 336, 366, 426, 487, 548, 610, 671, 731], 0) == [4, 5, 6, 7, 8, 9, 10]
  {
    var t := [32, 92, 153, 214, 275, 336, 366, 426, 487, 548, 610, 671, 731];
    assert ShownIndices(t, 13) == [];
    assert ShownIndices(t, 12) == [];
    assert ShownIndices(t, 11) == [];
    assert ShownIndices(t, 10) == [10];
    assert ShownIndices(t, 9) == [9, 10];
    assert ShownIndices(t, 8) == [8, 9, 10];
    assert ShownIndices(t, 7) == [7, 8, 9, 10];
    assert ShownIndices(t, 6) == [6, 7, 8, 9, 10];
    assert ShownIndices(t, 5) == [5, 6, 7, 8, 9, 10];
    assert ShownIndices(t, 4) == [4, 5, 6, 7, 8, 9, 10];
    assert ShownIndices(t, 3) == [4, 5, 6, 7, 8, 9, 10];
    assert ShownIndices(t, 2) == [4, 5, 6, 7, 8, 9, 10];
    assert ShownIndices(t, 1) == [4, 5, 6, 7, 8, 9, 10];
    assert ShownIndices(t, 0) == [4, 5, 6, 7, 8, 9, 10];
  }

  /** The kept ticks are the ticks at the kept positions. */
  lemma TicksOfIndices(ticks: seq<int>, ix: seq<nat>, expected: seq<int>)
    requires ShownIndices(ticks, 0) == ix && |expected| == |ix|
    requires forall k :: 0 <= k < |ix| ==> ix[k] < |ticks| && expected[k] == ticks[ix[k]]
    ensures ShownTicks(ticks) == expected
  {
  }

  /** The kept labels are the (month, tick) pairs at the kept positions. */
  lemma LabelsOfIndices(ticks: seq<int>, months: seq<Option<string>>, ix: seq<nat>, expected: seq<(Option<string>, int)>)
    requires |ticks| == |months| && ShownIndices(ticks, 0) == ix && |expected| == |ix|
    requires forall k :: 0 <= k < |ix| ==> ix[k] < |ticks| && expected[k] == (months[ix[k]], ticks[ix[k]])
    ensures ShownLabels(ticks, months) == expected
  {
  }

  /** The seven ticks `plot` keeps. */
  lemma ShownTicksValue()
    ensures ShownTicks(TickPositions()) == [275, 336, 366, 426, 487, 548, 610]
  {
    TickPositionsValue();
    ShownIndicesValue();
    TicksOfIndices(TickPositions(), [4, 5, 6, 7, 8, 9, 10], [275, 336, 366, 426, 487, 548, 610]);
  }

  /** The seven labels `plot` keeps, each with the month of its tick. */
  lemma ShownLabelsValue()
    ensures ShownLabels(TickPositions(), TickMonths()) == [
      (Some("Oct"), 275), (Some("Dec"), 336), (Some("Jan"), 366), (Some("Mar"), 426),
      (Some("May"), 487), (Some("Jul"), 548), (Some("Sep"), 610)]
  {
    TickPositionsValue();
    TickMonthsValue();
    ShownIndicesValue();
    LabelsOfIndices(TickPositions(), TickMonths(), [4, 5, 6, 7, 8, 9, 10], [
      (Some("Oct"), 275), (Some("Dec"), 336), (Some("Jan"), 366), (Some("Mar"), 426),
      (Some("May"), 487), (Some("Jul"), 548), (Some("Sep"), 610)]);
  }

  /** The ticks and labels the window filter of lines 19-20 keeps: October 1
      to September 1 of the next year. */
  lemma ShownTickLabels()
    ensures ShownTicks(TickPositions()) == [275, 336, 366, 426, 487, 548, 610]
    ensures ShownLabels(TickPositions(), TickMonths()) == [
      (Some("Oct"), 275), (Some("Dec"), 336), (Some("Jan"), 366), (Some("Mar"), 426),
      (Some("May"), 487), (Some("Jul"), 548), (Some("Sep"), 610)]
  {
    ShownTicksValue();
    ShownLabelsValue();
  }

  // ---------------------------------------------------------------------
  // Balance errors (lines 12-13 and 74-85).

  function Sum(s: seq<real>): real
  {
    if |s| == 0 then 0.0 else s[0] + Sum(s[1..])
  }

  lemma {:induction false} SumSnoc(s: seq<real>, x: real)
    ensures Sum(s + [x]) == Sum(s) + x
  {
    if |s| > 0 {
      SumSnoc(s[1..], x);
      assert (s + [x])[1..] == s[1..] + [x];
    } else {
      assert [x][1..] == [];
    }
  }

  /** `np.cumsum`: running totals, each the sum of the prefix up to and including it. */
  function CumSum(s: seq<real>): (c: seq<real>)
    ensures |c| == |s|
    ensures forall k :: 0 <= k < |s| ==> c[k] == Sum(s[..k + 1])
  {
    if |s| == 0 then []
    else
      var init := CumSum(s[..|s| - 1]);
      var total := (if |init| == 0 then 0.0 else init[|init| - 1]) + s[|s| - 1];
      assert total == Sum(s) by {
        SumSnoc(s[..|s| - 1], s[|s| - 1]);
        assert s[..|s| - 1] + [s[|s| - 1]] == s;
        if |init| > 0 {
          assert s[..|s| - 1][..|s| - 1] == s[..|s| - 1];
        } else {
          assert s[..|s| - 1] == [];
        }
      }
      assert forall k :: 0 <= k < |s| - 1 ==> init[k] == Sum(s[..k + 1]) by {
        forall k | 0 <= k < |s| - 1
          ensures init[k] == Sum(s[..k + 1])
        {
          assert s[..|s| - 1][..k + 1] == s[..k + 1];
        }
      }
      assert s[..|s|] == s;
      init + [total]
  }

  /** The error series `cumsum(net) - (storage - storage[0])`; none when
      there is no row (`storage[0]` raises). */
  function BalanceError(net: seq<real>, storage: seq<real>): (e: Option<seq<real>>)
    requires |net| == |storage|
    ensures e.None? <==> |storage| == 0
    ensures e.Some? ==> |e.value| == |net|
    ensures e.Some? ==> forall k :: 0 <= k < |net| ==>
      e.value[k] == Sum(net[..k + 1]) - (storage[k] - storage[0])
  {
    if |storage| == 0 then None
    else
      var c := CumSum(net);
      Some(seq(|net|, k requires 0 <= k < |net| => c[k] - (storage[k] - storage[0])))
  }

  /** The error starts at the first net flux, and from one row to the next
      it moves by that row's net flux minus that row's storage change. */
  lemma ErrorSteps(net: seq<real>, storage: seq<real>)
    requires |net| == |storage| > 0
    ensures BalanceError(net, storage).value[0] == net[0]
    ensures forall k :: 0 <= k < |net| - 1 ==>
      BalanceError(net, storage).value[k + 1] - BalanceError(net, storage).value[k]
        == net[k + 1] - (storage[k + 1] - storage[k])
  {
    assert net[..1] == [net[0]];
    assert Sum([net[0]]) == net[0] + Sum([net[0]][1..]);
    forall j | 1 <= j < |net|
      ensures Sum(net[..j + 1]) == Sum(net[..j]) + net[j]
    {
      SumSnoc(net[..j], net[j]);
      assert net[..j] + [net[j]] == net[..j + 1];
    }
  }

  /** The error is zero everywhere exactly when the storage change always
      equals the cumulative net flux. */
  lemma ErrorZeroIffBalanced(net: seq<real>, storage: seq<real>)
    requires |net| == |storage| > 0
    ensures (forall k :: 0 <= k < |net| ==> BalanceError(net, storage).value[k] == 0.0)
      <==> (forall k :: 0 <= k < |net| ==> storage[k] - storage[0] == Sum(net[..k + 1]))
  {
    var e := BalanceError(net, storage).value;
    assert forall k :: 0 <= k < |net| ==> e[k] == Sum(net[..k + 1]) - (storage[k] - storage[0]);
  }

  /** Element-wise `a + b - c - d` on series of one length. */
  function NetFlux(a: seq<real>, b: seq<real>, c: seq<real>, d: seq<real>): (r: seq<real>)
    requires |a| == |b| == |c| == |d|
    ensures |r| == |a| && forall k :: 0 <= k < |a| ==> r[k] == a[k] + b[k] - c[k] - d[k]
  {
    seq(|a|, k requires 0 <= k < |a| => a[k] + b[k] - c[k] - d[k])
  }

  /** A data dictionary: every series has `n` rows. */
  predicate Rectangular(data: map<string, seq<real>>, n: nat)
  {
    forall key :: key in data ==> |data[key]| == n
  }

  datatype PlotError = MissingKey(key: string) | NoRows

  function Get(data: map<string, seq<real>>, key: string): Result<seq<real>, PlotError>
  {
    Lookup(data, key, MissingKey(key))
  }

  /** Lines 12-13: the surface water balance error, from P + SM - ET - Q and
      the water storage. */
  function WaterBalanceError(data: map<string, seq<real>>, n: nat): (r: Result<seq<real>, PlotError>)
    requires Rectangular(data, n)
    ensures r.Ok? <==> n > 0 && {"P", "SM", "ET", "Q", "water"} <= data.Keys
    ensures r.Ok? ==> |r.value| == n
    ensures r.Ok? ==> var net := NetFlux(data["P"], data["SM"], data["ET"], data["Q"]);
      forall k :: 0 <= k < n ==> r.value[k] == Sum(net[..k + 1]) - (data["water"][k] - data["water"][0])
  {
    var p :- Get(data, "P");
    var sm :- Get(data, "SM");
    var et :- Get(data, "ET");
    var q :- Get(data, "Q");
    var water :- Get(data, "water");
    match BalanceError(NetFlux(p, sm, et, q), water)
    case None => Err(NoRows)
    case Some(e) => Ok(e)
  }

  /** Lines 74-85: the snow balance error, from S - SM, minus E_snow only
      when that series is present. */
  function SnowBalanceError(data: map<string, seq<real>>, n: nat): (r: Result<seq<real>, PlotError>)
    requires Rectangular(data, n)
    ensures r.Ok? <==> n > 0 && {"S", "SM", "snow"} <= data.Keys
    ensures r.Ok? ==> |r.value| == n
    ensures r.Ok? ==>
      var zero := seq(n, _ => 0.0);
      var net := NetFlux(data["S"], zero, data["SM"], if "E_snow" in data then data["E_snow"] else zero);
      forall k :: 0 <= k < n ==> r.value[k] == Sum(net[..k + 1]) - (data["snow"][k] - data["snow"][0])
  {
    var s :- Get(data, "S");
    var sm :- Get(data, "SM");
    var zero := seq(n, _ => 0.0);
    var evaporation := if "E_snow" in data then data["E_snow"] else zero;
    var snow :- Get(data, "snow");
    match BalanceError(NetFlux(s, zero, sm, evaporation), snow)
    case None => Err(NoRows)
    case Some(e) => Ok(e)
  }

  /** Lines 34-36: a fourth panel for the canopy when its series is present. */
  function PanelCount(data: map<string, seq<real>>): (p: nat)
    ensures p == 4 <==> "canopy water" in data
    ensures p == 3 || p == 4
  {
    if "canopy water" in data then 4 else 3
  }

  // ---------------------------------------------------------------------
  // `load` (lines 99-141).

  /** Moles of liquid water in one cubic metre. */
  const MolesPerCubicMetre: real := 55500.0

  datatype LoadError = MissingColumn(column: string)

  function Column(df: map<string, seq<real>>, name: string): Result<seq<real>, LoadError>
  {
    Lookup(df, name, MissingColumn(name))
  }

  /** A column in moles turned into metres of water over the surface. */
  function ToMetres(mol: seq<real>, surfArea: real): (m: seq<real>)
    requires surfArea != 0.0
    ensures |m| == |mol|
    ensures forall k :: 0 <= k < |mol| ==> m[k] * MolesPerCubicMetre * surfArea == mol[k]
  {
    seq(|mol|, k requires 0 <= k < |mol| => mol[k] / MolesPerCubicMetre / surfArea)
  }

  function Sum2(a: seq<real>, b: seq<real>): (r: seq<real>)
    requires |a| == |b|
    ensures |r| == |a| && forall k :: 0 <= k < |a| ==> r[k] == a[k] + b[k]
  {
    seq(|a|, k requires 0 <= k < |a| => a[k] + b[k])
  }

  const TimeDays := "time [d]"
  const TimePlain := "time"
  const Rain := "rain precipitation [m d^-1]"
  const SnowMelt := "snow melt [m d^-1]"
  const Evapotranspiration := "evapotranspiration [m d^-1]"
  const Runoff := "runoff generation [mol d^-1]"
  const SurfaceWater := "surface water content [mol]"
  const SubsurfaceWater := "subsurface water content [mol]"
  const CanopyWater := "canopy water content [mol]"
  const CanopyInterception := "canopy interception [m d^-1]"
  const CanopyDrainage := "canopy drainage [m d^-1]"
  const CanopyEvaporation := "canopy evaporation [m d^-1]"
  const SnowEvaporation := "snow evaporation [m d^-1]"
  const SnowWater := "snow water content [mol]"
  const SnowPrecipitation := "snow precipitation [m d^-1]"

  /** The series names the canopy block may add. */
  const CanopyKeys: set<string> := {"canopy water", "I", "D", "E_can"}

  /** Lines 125-131: the canopy series are copied in order and copying stops
      at the first missing column (the KeyError ends the `try`). */
  function CanopySeries(df: map<string, seq<real>>, data: map<string, seq<real>>, n: nat, surfArea: real)
    : (out: map<string, seq<real>>)
    requires Rectangular(df, n) && Rectangular(data, n) && surfArea != 0.0
    requires data.Keys !! CanopyKeys
    ensures Rectangular(out, n)
    ensures out.Keys - CanopyKeys == data.Keys
    ensures forall key :: key in data ==> out[key] == data[key]
    ensures "canopy water" in out <==> CanopyWater in df
    ensures "I" in out <==> "canopy water" in out && CanopyInterception in df
    ensures "D" in out <==> "I" in out && CanopyDrainage in df
    ensures "E_can" in out <==> "D" in out && CanopyEvaporation in df
    ensures "canopy water" in out ==>
      forall k :: 0 <= k < n ==> out["canopy water"][k] * MolesPerCubicMetre * surfArea == df[CanopyWater][k]
    ensures "I" in out ==> out["I"] == df[CanopyInterception]
    ensures "D" in out ==> out["D"] == df[CanopyDrainage]
    ensures "E_can" in out ==> out["E_can"] == df[CanopyEvaporation]
  {
    if CanopyWater !in df then data
    else
      var d1 := data["canopy water" := ToMetres(df[CanopyWater], surfArea)];
      if CanopyInterception !in df then d1
      else
        var d2 := d1["I" := df[CanopyInterception]];
        if CanopyDrainage !in df then d2
        else
          var d3 := d2["D" := df[CanopyDrainage]];
          if CanopyEvaporation !in df then d3
          else d3["E_can" := df[CanopyEvaporation]]
  }

  /** `load` on a data frame of `n` rows and a known surface area.  Reading
      the columns one after the other amounts to: no time column is an error
      about "time"; otherwise the first missing required column, in reading
      order, is the error; otherwise the assembled data. */
  function Load(df: map<string, seq<real>>, n: nat, surfArea: real): (r: Result<map<string, seq<real>>, LoadError>)
    requires Rectangular(df, n) && surfArea != 0.0
    ensures !HasTime(df) ==> r == Err(MissingColumn(TimePlain))
    ensures HasTime(df) && !AllRequired(df) ==>
      FirstMissing(df, RequiredColumns).Some? && r == Err(MissingColumn(FirstMissing(df, RequiredColumns).value))
    ensures HasTime(df) && AllRequired(df) ==> r == Ok(Assemble(df, n, surfArea))
  {
    FirstMissingRequired(df);
    var time :- if TimeDays in df then Ok(df[TimeDays]) else Column(df, TimePlain);
    var p :- Column(df, Rain);
    var sm :- Column(df, SnowMelt);
    var et :- Column(df, Evapotranspiration);
    var runoff :- Column(df, Runoff);
    var surface :- Column(df, SurfaceWater);
    var subsurface :- Column(df, SubsurfaceWater);
    var base := map["time" := time, "P" := p, "SM" := sm, "ET" := et,
                     "Q" := ToMetres(runoff, surfArea), "water" := ToMetres(Sum2(surface, subsurface), surfArea)];
    var withCanopy := CanopySeries(df, base, n, surfArea);
    var withSnowLoss := if SnowEvaporation in df then withCanopy["E_snow" := df[SnowEvaporation]] else withCanopy;
    var snow :- Column(df, SnowWater);
    var s :- Column(df, SnowPrecipitation);
    Ok(withSnowLoss["snow" := ToMetres(snow, surfArea)]["S" := s])
  }

  /** The columns `load` cannot do without, in the order it reads them,
      after the time column (which may come under either of two names). */
  const RequiredColumns: seq<string> :=
    [Rain, SnowMelt, Evapotranspiration, Runoff, SurfaceWater, SubsurfaceWater, SnowWater, SnowPrecipitation]

  predicate HasTime(df: map<string, seq<real>>)
  {
    TimeDays in df || TimePlain in df
  }

  predicate AllRequired(df: map<string, seq<real>>)
  {
    && Rain in df && SnowMelt in df && Evapotranspiration in df && Runoff in df
    && SurfaceWater in df && SubsurfaceWater in df && SnowWater in df && SnowPrecipitation in df
  }

  /** The first of `columns` that `df` lacks. */
  function FirstMissing(df: map<string, seq<real>>, columns: seq<string>): (m: Option<string>)
    ensures m.None? <==> forall i :: 0 <= i < |columns| ==> columns[i] in df
    ensures m.Some? ==>
      exists i :: 0 <= i < |columns| && columns[i] == m.value && m.value !in df
        && forall j :: 0 <= j < i ==> columns[j] in df
  {
    if |columns| == 0 then None
    else if columns[0] !in df then Some(columns[0])
    else
      var rest := FirstMissing(df, columns[1..]);
      if rest.Some? then
        var i :| 0 <= i < |columns[1..]| && columns[1..][i] == rest.value && rest.value !in df
          && forall j :: 0 <= j < i ==> columns[1..][j] in df;
        assert columns[i + 1] == rest.value && forall j :: 0 <= j < i + 1 ==> columns[j] in df;
        rest
      else rest
  }

  /** The required columns are all there exactly when none of them is missing. */
  lemma AllRequiredIffNoneMissing(df: map<string, seq<real>>)
    ensures AllRequired(df) <==> FirstMissing(df, RequiredColumns).None?
  {
    assert RequiredColumns[0] == Rain && RequiredColumns[1] == SnowMelt;
    assert RequiredColumns[2] == Evapotranspiration && RequiredColumns[3] == Runoff;
    assert RequiredColumns[4] == SurfaceWater && RequiredColumns[5] == SubsurfaceWater;
    assert RequiredColumns[6] == SnowWater && RequiredColumns[7] == SnowPrecipitation;
  }

  /** Lines 99-123: time, the fluxes, and runoff and water in metres. */
  function Base(df: map<string, seq<real>>, n: nat, surfArea: real): (b: map<string, seq<real>>)
    requires Rectangular(df, n) && surfArea != 0.0 && HasTime(df) && AllRequired(df)
    ensures b.Keys == {"time", "P", "SM", "ET", "Q", "water"}
    ensures Rectangular(b, n)
  {
    map["time" := if TimeDays in df then df[TimeDays] else df[TimePlain],
        "P" := df[Rain], "SM" := df[SnowMelt], "ET" := df[Evapotranspiration],
        "Q" := ToMetres(df[Runoff], surfArea),
        "water" := ToMetres(Sum2(df[SurfaceWater], df[SubsurfaceWater]), surfArea)]
  }

  /** The data `load` returns once every column it needs is present. */
  function Assemble(df: map<string, seq<real>>, n: nat, surfArea: real): (data: map<string, seq<real>>)
    requires Rectangular(df, n) && surfArea != 0.0 && HasTime(df) && AllRequired(df)
    ensures Rectangular(data, n)
  {
    var withCanopy := CanopySeries(df, Base(df, n, surfArea), n, surfArea);
    var withSnowLoss := if SnowEvaporation in df then withCanopy["E_snow" := df[SnowEvaporation]] else withCanopy;
    withSnowLoss["snow" := ToMetres(df[SnowWater], surfArea)]["S" := df[SnowPrecipitation]]
  }

  /** The first required column missing from `df`, in reading order. */
  lemma FirstMissingRequired(df: map<string, seq<real>>)
    ensures !AllRequired(df) ==> FirstMissing(df, RequiredColumns) == Some(
      if Rain !in df then Rain
      else if SnowMelt !in df then SnowMelt
      else if Evapotranspiration !in df then Evapotranspiration
      else if Runoff !in df then Runoff
      else if SurfaceWater !in df then SurfaceWater
      else if SubsurfaceWater !in df then SubsurfaceWater
      else if SnowWater !in df then SnowWater
      else SnowPrecipitation)
  {
    if AllRequired(df) {
      return;
    }
    var c := RequiredColumns;
    var k := if Rain !in df then 0
      else if SnowMelt !in df then 1
      else if Evapotranspiration !in df then 2
      else if Runoff !in df then 3
      else if SurfaceWater !in df then 4
      else if SubsurfaceWater !in df then 5
      else if SnowWater !in df then 6
      else 7;
    FirstMissingAt(df, c, k);
  }

  /** The first missing column is the one at the first index whose column is absent. */
  lemma {:induction false} FirstMissingAt(df: map<string, seq<real>>, columns: seq<string>, i: nat)
    requires i < |columns| && columns[i] !in df
    requires forall j :: 0 <= j < i ==> columns[j] in df
    ensures FirstMissing(df, columns) == Some(columns[i])
  {
    if i > 0 {
      FirstMissingAt(df, columns[1..], i - 1);
    }
  }

  /** Time comes from "time [d]", else from "time"; runoff, water and snow
      are converted from moles to metres of water over the surface. */
  lemma AssembledConversions(df: map<string, seq<real>>, n: nat, surfArea: real)
    requires Rectangular(df, n) && surfArea != 0.0 && HasTime(df) && AllRequired(df)
    ensures var data := Assemble(df, n, surfArea);
      && {"time", "P", "SM", "ET", "Q", "water", "snow", "S"} <= data.Keys
      && data["time"] == (if TimeDays in df then df[TimeDays] else df[TimePlain])
      && data["P"] == df[Rain] && data["SM"] == df[SnowMelt] && data["ET"] == df[Evapotranspiration]
      && data["S"] == df[SnowPrecipitation]
      && (forall k :: 0 <= k < n ==> data["Q"][k] * MolesPerCubicMetre * surfArea == df[Runoff][k])
      && (forall k :: 0 <= k < n ==>
            data["water"][k] * MolesPerCubicMetre * surfArea == df[SurfaceWater][k] + df[SubsurfaceWater][k])
      && (forall k :: 0 <= k < n ==> data["snow"][k] * MolesPerCubicMetre * surfArea == df[SnowWater][k])
  {
  }

  /** The optional series: the canopy ones as a prefix of their reading
      order, E_snow exactly when its column is present. */
  lemma AssembledOptionals(df: map<string, seq<real>>, n: nat, surfArea: real)
    requires Rectangular(df, n) && surfArea != 0.0 && HasTime(df) && AllRequired(df)
    ensures var data := Assemble(df, n, surfArea);
      && ("canopy water" in data <==> CanopyWater in df)
      && ("I" in data <==> CanopyWater in df && CanopyInterception in df)
      && ("D" in data <==> "I" in data && CanopyDrainage in df)
      && ("E_can" in data <==> "D" in data && CanopyEvaporation in df)
      && ("E_snow" in data <==> SnowEvaporation in df)
  {
  }

  /** Four panels are drawn exactly when the file has a canopy water column. */
  lemma FourPanelsIffCanopy(df: map<string, seq<real>>, n: nat, surfArea: real)
    requires Rectangular(df, n) && surfArea != 0.0
    requires Load(df, n, surfArea).Ok?
    ensures PanelCount(Load(df, n, surfArea).value) == 4 <==> CanopyWater in df
  {
    AssembledOptionals(df, n, surfArea);
  }

  /** Whatever `load` returns for a non-empty file, both balance errors of
      `plot` can be computed from it. */
  lemma LoadedDataPlots(df: map<string, seq<real>>, n: nat, surfArea: real)
    requires Rectangular(df, n) && surfArea != 0.0 && n > 0
    requires Load(df, n, surfArea).Ok?
    ensures WaterBalanceError(Load(df, n, surfArea).value, n).Ok?
    ensures SnowBalanceError(Load(df, n, surfArea).value, n).Ok?
  {
    AssembledConversions(df, n, surfArea);
  }
}

=== FILE: mesh_decoder.dfy ===
/** The mixed-element connectivity decoder `GetMeshPolygons`
    (models/notebooks/libs/ats_vis.py:36-98).

    The connectivity buffer holds, back to back, one record per element: a
    cell code followed by node ids.  The loop at lines 58-71 copies the ids of
    each record into a five-slot working row (zero-filled), then lines 83-96
    turn every row into an ordered ring of node ids and look the ids up in the
    node table.  The model follows the code, quirks included:
    - an unknown code leaves the row all zero and does NOT advance the cursor;
    - code 3 skips one integer (the node count) and always copies five ids;
    - a slice shorter than the slots it is assigned to is broadcast by numpy
      when it has one element and is an error otherwise;
    - -1 is dropped in every slot and 0 only in the last two slots. */
module MeshDecoder {
  import opened Wrappers

  /** XDMF "Mixed" topology cell codes recognised by the loop. */
  const PolygonCode: int := 3
  const TriangleCode: int := 4
  const QuadCode: int := 5

  /** Width of one row of the working table `mesh_topology`. */
  const RowWidth: nat := 5

  /** The marker line 88 writes over a 0 in the last two slots. */
  const Sentinel: int := -1

  type Row = r: seq<int> | |r| == RowWidth witness [0, 0, 0, 0, 0]

  datatype DecodeError =
    /** `elems_mixed[0]` on an exhausted buffer (IndexError). */
    | BufferExhausted(element: nat)
    /** A slice of 0 or of 2..k-1 ids cannot be broadcast into k slots (ValueError). */
    | ShortRecord(element: nat, code: int)
    /** Some id of the working table is not a valid index of the node table (IndexError). */
    | NodeOutOfRange

  /** What one iteration of the loop leaves behind: the element's row and the rest of the buffer. */
  datatype Step = Step(row: Row, rest: seq<int>)

  function ZeroRow(): (z: Row)
    ensures forall s :: 0 <= s < RowWidth ==> z[s] == 0
  {
    [0, 0, 0, 0, 0]
  }

  /** Python's `buf[a:b]` for 0 <= a <= b: both ends are clamped to the length. */
  function Slice(buf: seq<int>, a: nat, b: nat): (r: seq<int>)
    requires a <= b
    ensures |buf| >= b ==> r == buf[a..b]
    ensures |buf| <= a ==> r == []
    ensures |r| == (if |buf| >= b then b - a else if |buf| <= a then 0 else |buf| - a)
  {
    if |buf| <= a then [] else if |buf| <= b then buf[a..] else buf[a..b]
  }

  /** Python's `buf[a:]`. */
  function Drop(buf: seq<int>, a: nat): (r: seq<int>)
    ensures |buf| >= a ==> r == buf[a..]
    ensures |buf| <= a ==> r == []
  {
    if |buf| <= a then [] else buf[a..]
  }

  /** `mesh_topology[i, 0:width] = ids` on a zero row, with numpy broadcasting:
      the assignment succeeds when `ids` has exactly `width` entries or exactly one. */
  function FillRow(ids: seq<int>, width: nat): (r: Option<Row>)
    requires 1 <= width <= RowWidth
    ensures r.Some? <==> (|ids| == width || |ids| == 1)
    ensures r.Some? ==> forall s :: 0 <= s < RowWidth ==>
      r.value[s] == (if width <= s then 0 else if |ids| == width then ids[s] else ids[0])
  {
    if |ids| == width then Some(ids + ZeroRow()[width..])
    else if |ids| == 1 then Some(seq(width, _ => ids[0]) + ZeroRow()[width..])
    else None
  }

  /** One iteration of the loop at lines 58-71, for element number `element`. */
  function ReadRecord(buf: seq<int>, element: nat): (r: Result<Step, DecodeError>)
    ensures |buf| == 0 <==> r == Err(BufferExhausted(element))
    ensures r.Ok? && buf[0] == TriangleCode ==> r.value.rest == Drop(buf, 4)
    ensures r.Ok? && buf[0] == QuadCode ==> r.value.rest == Drop(buf, 5)
    ensures r.Ok? && buf[0] == PolygonCode ==> r.value.rest == Drop(buf, 7)
    ensures |buf| > 0 && buf[0] !in {PolygonCode, TriangleCode, QuadCode} ==>
      r == Ok(Step(ZeroRow(), buf))
    ensures r.Err? && |buf| > 0 ==> r.error == ShortRecord(element, buf[0])
  {
    if |buf| == 0 then Err(BufferExhausted(element))
    else
      var code := buf[0];
      if code == TriangleCode then
        match FillRow(Slice(buf, 1, 4), 3)
        case None => Err(ShortRecord(element, code))
        case Some(row) => Ok(Step(row, Drop(buf, 4)))
      else if code == QuadCode then
        match FillRow(Slice(buf, 1, 5), 4)
        case None => Err(ShortRecord(element, code))
        case Some(row) => Ok(Step(row, Drop(buf, 5)))
      else if code == PolygonCode then
        match FillRow(Slice(buf, 2, 7), 5)
        case None => Err(ShortRecord(element, code))
        case Some(row) => Ok(Step(row, Drop(buf, 7)))
      else
        Ok(Step(ZeroRow(), buf))
  }

  /** The rows of elements `i` .. `n`-1, reading records from `buf`
      (the loop at lines 56-71, from iteration `i` on). */
  function DecodeRows(buf: seq<int>, i: nat, n: nat): (r: Result<seq<Row>, DecodeError>)
    decreases n - i
    ensures r.Ok? ==> |r.value| == if i <= n then n - i else 0
    ensures r.Err? && r.error.BufferExhausted? ==> i <= r.error.element < n
    ensures r.Err? && r.error.ShortRecord? ==> i <= r.error.element < n
    ensures r.Err? ==> !r.error.NodeOutOfRange?
  {
    if n <= i then Ok([])
    else
      match ReadRecord(buf, i)
      case Err(e) => Err(e)
      case Ok(step) =>
        match DecodeRows(step.rest, i + 1, n)
        case Err(e) => Err(e)
        case Ok(rows) => Ok([step.row] + rows)
  }

  /** Lines 87-91: the ring of one row.  -1 is dropped in every slot; in the
      last two slots a 0 is first turned into -1 and so dropped as well. */
  function Ring(row: Row): (ring: seq<int>)
    ensures |ring| <= RowWidth
    ensures Sentinel !in ring
  {
    HeadIds(row) + TailIds(row)
  }

  /** The ids of slots 0-2 that survive line 91, in slot order. */
  function HeadIds(row: Row): (ids: seq<int>)
    ensures Sentinel !in ids
    ensures |ids| <= 3
    ensures (Sentinel !in row[..3]) <==> ids == row[..3]
  {
    (if row[0] == Sentinel then [] else [row[0]])
    + (if row[1] == Sentinel then [] else [row[1]])
    + (if row[2] == Sentinel then [] else [row[2]])
  }

  /** The ids of slots 3-4 that survive lines 88-91, in slot order. */
  function TailIds(row: Row): (ids: seq<int>)
    ensures Sentinel !in ids && 0 !in ids
    ensures |ids| <= 2
    ensures forall v :: v in ids <==> v in row[3..] && v != 0 && v != Sentinel
  {
    (if row[3] == 0 || row[3] == Sentinel then [] else [row[3]])
    + (if row[4] == 0 || row[4] == Sentinel then [] else [row[4]])
  }

  /** `node_coor[id]` succeeds, with Python's negative indexing. */
  predicate Indexable(count: nat, id: int)
  {
    -(count as int) <= id < count
  }

  function NodeAt<P>(nodes: seq<P>, id: int): (p: P)
    requires Indexable(|nodes|, id)
    ensures 0 <= id ==> p == nodes[id]
    ensures id < 0 ==> p == nodes[|nodes| + id]
  {
    if 0 <= id then nodes[id] else nodes[|nodes| + id]
  }

  /** Line 80 (`node_coor[noodes_unique, :]`) succeeds: every value of the
      working table, padding included, indexes the node table. */
  predicate RowsIndexable(count: nat, rows: seq<Row>)
  {
    forall i :: 0 <= i < |rows| ==> RowIndexable(count, rows[i])
  }

  /** Line 92 for one ring: the coordinates of its ids, in ring order. */
  function LookUp<P>(nodes: seq<P>, ids: seq<int>): (coords: seq<P>)
    requires forall k :: 0 <= k < |ids| ==> Indexable(|nodes|, ids[k])
    ensures |coords| == |ids|
    ensures forall k :: 0 <= k < |ids| ==> coords[k] == NodeAt(nodes, ids[k])
  {
    seq(|ids|, k requires 0 <= k < |ids| => NodeAt(nodes, ids[k]))
  }

  /** Every value of a row indexes a table of `count` nodes. */
  predicate RowIndexable(count: nat, row: Row)
  {
    forall s :: 0 <= s < RowWidth ==> Indexable(count, row[s])
  }

  /** Line 92 for one row: the coordinates of the ids of its ring, in ring order. */
  function RingCoords<P>(nodes: seq<P>, row: Row): (coords: seq<P>)
    requires RowIndexable(|nodes|, row)
    ensures |coords| == |Ring(row)|
    ensures forall k :: 0 <= k < |coords| ==> coords[k] == NodeAt(nodes, Ring(row)[k])
  {
    var ring := Ring(row);
    assert forall k :: 0 <= k < |ring| ==> ring[k] in row;
    LookUp(nodes, ring)
  }

  /** The polygons of lines 82-96, one coordinate ring per row. */
  function Polygons<P>(nodes: seq<P>, rows: seq<Row>): (polys: seq<seq<P>>)
    requires forall i :: 0 <= i < |rows| ==> RowIndexable(|nodes|, rows[i])
    ensures |polys| == |rows|
    ensures forall i :: 0 <= i < |rows| ==> polys[i] == RingCoords(nodes, rows[i])
  {
    seq(|rows|, i requires 0 <= i < |rows| => RingCoords(nodes, rows[i]))
  }

  /** `GetMeshPolygons` on the arrays read from the mesh file: the node table,
      the mixed connectivity buffer and the element count. */
  function GetMeshPolygons<P>(nodes: seq<P>, buf: seq<int>, numElems: nat): (r: Result<seq<seq<P>>, DecodeError>)
    ensures DecodeRows(buf, 0, numElems).Err? ==> r == Err(DecodeRows(buf, 0, numElems).error)
    ensures DecodeRows(buf, 0, numElems).Ok? ==>
      (r.Ok? <==> RowsIndexable(|nodes|, DecodeRows(buf, 0, numElems).value))
    ensures r.Err? && DecodeRows(buf, 0, numElems).Ok? ==> r.error == NodeOutOfRange
    ensures r.Ok? ==> |r.value| == numElems
    ensures r.Ok? ==> forall i :: 0 <= i < numElems ==>
      r.value[i] == RingCoords(nodes, DecodeRows(buf, 0, numElems).value[i])
  {
    match DecodeRows(buf, 0, numElems)
    case Err(e) => Err(e)
    case Ok(rows) =>
      if RowsIndexable(|nodes|, rows) then Ok(Polygons(nodes, rows)) else Err(NodeOutOfRange)
  }

  // ---------------------------------------------------------------------
  // The writer side: well-formed records, their encoding and their rows.

  /** One well-formed record of the connectivity buffer.  A polygon record
      carries a node count, which the decoder skips, and five ids. */
  datatype Cell =
    | Triangle(a: int, b: int, c: int)
    | Quad(a: int, b: int, c: int, d: int)
    | Polygon(count: int, p0: int, p1: int, p2: int, p3: int, p4: int)

  function EncodeCell(c: Cell): (code: seq<int>)
    ensures |code| == match c
      case Triangle(_, _, _) => 4
      case Quad(_, _, _, _) => 5
      case Polygon(_, _, _, _, _, _) => 7
  {
    match c
    case Triangle(a, b, cc) => [TriangleCode, a, b, cc]
    case Quad(a, b, cc, d) => [QuadCode, a, b, cc, d]
    case Polygon(k, p0, p1, p2, p3, p4) => [PolygonCode, k, p0, p1, p2, p3, p4]
  }

  /** The records written back to back. */
  function Encode(cells: seq<Cell>): seq<int>
  {
    if |cells| == 0 then [] else EncodeCell(cells[0]) + Encode(cells[1..])
  }

  /** The row the decoder is meant to fill for a record: its ids, zero-padded. */
  function CellRow(c: Cell): Row
  {
    match c
    case Triangle(a, b, cc) => [a, b, cc, 0, 0]
    case Quad(a, b, cc, d) => [a, b, cc, d, 0]
    case Polygon(_, p0, p1, p2, p3, p4) => [p0, p1, p2, p3, p4]
  }

  function CellRows(cells: seq<Cell>): (rows: seq<Row>)
    ensures |rows| == |cells|
    ensures forall i :: 0 <= i < |cells| ==> rows[i] == CellRow(cells[i])
  {
    seq(|cells|, i requires 0 <= i < |cells| => CellRow(cells[i]))
  }

  /** `rows` in front of a decoding result; a failure passes through. */
  function Prepend(rows: seq<Row>, r: Result<seq<Row>, DecodeError>): Result<seq<Row>, DecodeError>
  {
    match r
    case Ok(more) => Ok(rows + more)
    case Err(e) => Err(e)
  }

  /** Record consumption by code: a triangle record takes 4 integers and
      stores offsets 1-3, a quad record takes 5 and stores offsets 1-4, a
      polygon record takes 7, skips offset 1 and stores offsets 2-6. */
  lemma ReadEncodedCell(c: Cell, rest: seq<int>, element: nat)
    ensures ReadRecord(EncodeCell(c) + rest, element) == Ok(Step(CellRow(c), rest))
  {
    var buf := EncodeCell(c) + rest;
    var n := |EncodeCell(c)|;
    assert buf[..n] == EncodeCell(c);
    assert Drop(buf, n) == rest;
    match c
    case Triangle(a, b, cc) =>
      assert buf[0] == TriangleCode;
      assert Slice(buf, 1, 4) == [a, b, cc];
      assert ZeroRow()[3..] == [0, 0];
      assert FillRow([a, b, cc], 3).value == [a, b, cc] + [0, 0] == CellRow(c);
    case Quad(a, b, cc, d) =>
      assert buf[0] == QuadCode;
      assert Slice(buf, 1, 5) == [a, b, cc, d];
      assert ZeroRow()[4..] == [0];
      assert FillRow([a, b, cc, d], 4).value == [a, b, cc, d] + [0] == CellRow(c);
    case Polygon(k, p0, p1, p2, p3, p4) =>
      assert buf[0] == PolygonCode;
      assert Slice(buf, 2, 7) == [p0, p1, p2, p3, p4];
      assert ZeroRow()[5..] == [];
      assert FillRow([p0, p1, p2, p3, p4], 5).value == [p0, p1, p2, p3, p4] + [] == CellRow(c);
  }

  /** Decoding walks the records in buffer order: element i + j is built
      from the j-th record, and whatever follows the records is decoded for
      the remaining elements.  */
  lemma {:induction false} DecodeEncoded(cells: seq<Cell>, rest: seq<int>, i: nat, n: nat)
    requires i + |cells| <= n
    ensures DecodeRows(Encode(cells) + rest, i, n) == Prepend(CellRows(cells), DecodeRows(rest, i + |cells|, n))
    decreases |cells|
  {
    if |cells| == 0 {
      assert Encode(cells) + rest == rest;
      PrependNone(DecodeRows(rest, i, n));
    } else {
      var c, tail := cells[0], Encode(cells[1..]) + rest;
      var later := DecodeRows(rest, i + |cells|, n);
      DecodeFirstCell(cells, rest, i, n);
      DecodeEncoded(cells[1..], rest, i + 1, n);
      assert i + 1 + |cells[1..]| == i + |cells|;
      assert later == DecodeRows(rest, i + 1 + |cells[1..]|, n);
      CellRowsCons(cells);
      PrependTwice([CellRow(c)], CellRows(cells[1..]), later);
    }
  }

  /** The first record of an encoded buffer gives the first row. */
  lemma DecodeFirstCell(cells: seq<Cell>, rest: seq<int>, i: nat, n: nat)
    requires |cells| > 0 && i < n
    ensures DecodeRows(Encode(cells) + rest, i, n)
      == Prepend([CellRow(cells[0])], DecodeRows(Encode(cells[1..]) + rest, i + 1, n))
  {
    EncodeCons(cells, rest);
    DecodeOneCell(cells[0], Encode(cells[1..]) + rest, i, n);
  }

  lemma PrependNone(r: Result<seq<Row>, DecodeError>)
    ensures Prepend(CellRows([]), r) == r
  {
    if r.Ok? {
      assert CellRows([]) + r.value == r.value;
    }
  }

  lemma EncodeCons(cells: seq<Cell>, rest: seq<int>)
    requires |cells| > 0
    ensures Encode(cells) + rest == EncodeCell(cells[0]) + (Encode(cells[1..]) + rest)
  {
  }

  lemma CellRowsCons(cells: seq<Cell>)
    requires |cells| > 0
    ensures CellRows(cells) == [CellRow(cells[0])] + CellRows(cells[1..])
  {
  }

  /** A well-formed record at the cursor gives its row, and decoding goes on after it. */
  lemma DecodeOneCell(c: Cell, tail: seq<int>, i: nat, n: nat)
    requires i < n
    ensures DecodeRows(EncodeCell(c) + tail, i, n) == Prepend([CellRow(c)], DecodeRows(tail, i + 1, n))
  {
    ReadEncodedCell(c, tail, i);
    DecodeStep(EncodeCell(c) + tail, i, n);
  }

  /** One iteration of the loop followed by the rest of it. */
  lemma DecodeStep(buf: seq<int>, i: nat, n: nat)
    requires i < n && ReadRecord(buf, i).Ok?
    ensures DecodeRows(buf, i, n) ==
      Prepend([ReadRecord(buf, i).value.row], DecodeRows(ReadRecord(buf, i).value.rest, i + 1, n))
  {
  }

  lemma PrependTwice(a: seq<Row>, b: seq<Row>, r: Result<seq<Row>, DecodeError>)
    ensures Prepend(a, Prepend(b, r)) == Prepend(a + b, r)
  {
    if r.Ok? {
      assert a + (b + r.value) == (a + b) + r.value;
    }
  }

  /** A buffer of exactly `num_elems` well-formed records decodes to their rows, in order. */
  lemma {:induction false} DecodeExact(cells: seq<Cell>)
    ensures DecodeRows(Encode(cells), 0, |cells|) == Ok(CellRows(cells))
  {
    DecodeEncoded(cells, [], 0, |cells|);
    assert Encode(cells) + [] == Encode(cells);
    assert CellRows(cells) + [] == CellRows(cells);
  }

  /** An unrecognised code is never consumed: that element and every later one
      gets an all-zero row. */
  lemma {:induction false} UnknownCodeSticks(buf: seq<int>, i: nat, n: nat)
    requires |buf| > 0 && buf[0] !in {PolygonCode, TriangleCode, QuadCode}
    ensures DecodeRows(buf, i, n).Ok?
    ensures forall k :: 0 <= k < |DecodeRows(buf, i, n).value| ==> DecodeRows(buf, i, n).value[k] == ZeroRow()
    decreases n - i
  {
    if i < n {
      UnknownCodeSticks(buf, i + 1, n);
    }
  }

  /** Offset of the first id copied from a record: polygon records skip their node count. */
  function FirstId(c: Cell): nat
  {
    if c.Polygon? then 2 else 1
  }

  /** A record cut short: with no id or with 2 .. k-1 of its k ids left the
      assignment into the row fails; with exactly one id left numpy
      broadcasts that id over all k slots and the buffer is then empty. */
  lemma TruncatedRecord(c: Cell, k: nat, element: nat)
    requires 1 <= k < |EncodeCell(c)|
    ensures ReadRecord(EncodeCell(c)[..k], element).Ok? <==> k == FirstId(c) + 1
    ensures ReadRecord(EncodeCell(c)[..k], element).Err? ==>
      ReadRecord(EncodeCell(c)[..k], element).error == ShortRecord(element, EncodeCell(c)[0])
    ensures k == FirstId(c) + 1 ==>
      var step := ReadRecord(EncodeCell(c)[..k], element).value;
      step.rest == [] && step.row[0] == step.row[1] == step.row[2] == EncodeCell(c)[FirstId(c)]
  {
    var buf := EncodeCell(c)[..k];
    assert buf[0] == EncodeCell(c)[0];
  }

  /** An unknown code after some well-formed records: the records decode as
      usual, and every element from the unknown code on gets an all-zero row
      and so the ring [0, 0, 0] (node 0 three times). */
  lemma UnknownCodeRows(cells: seq<Cell>, rest: seq<int>, m: nat)
    requires |rest| > 0 && rest[0] !in {PolygonCode, TriangleCode, QuadCode}
    ensures var r := DecodeRows(Encode(cells) + rest, 0, |cells| + m);
      && r.Ok?
      && (forall i :: 0 <= i < |cells| ==> r.value[i] == CellRow(cells[i]))
      && (forall i :: |cells| <= i < |cells| + m ==> r.value[i] == ZeroRow() && Ring(r.value[i]) == [0, 0, 0])
  {
    DecodeEncoded(cells, rest, 0, |cells| + m);
    UnknownCodeSticks(rest, |cells|, |cells| + m);
    var rows := DecodeRows(Encode(cells) + rest, 0, |cells| + m).value;
    forall i | |cells| <= i < |cells| + m
      ensures rows[i] == ZeroRow() && Ring(rows[i]) == [0, 0, 0]
    {
      ZeroRowRing();
    }
  }

  /** Which ids of a row reach the ring: ids 0 .. 2 are kept unless they are
      -1; in the last two slots 0 is dropped too.  So with no -1 in the row the
      ring has 3 to 5 ids, starts with the first three slots, never holds a 0
      after them, and keeps slot order. */
  lemma RingShape(row: Row)
    requires Sentinel !in row
    ensures 3 <= |Ring(row)| <= RowWidth
    ensures Ring(row)[..3] == row[..3]
    ensures 0 !in Ring(row)[3..]
    ensures Ring(row)[3..] == (if row[3] == 0 then [] else [row[3]]) + (if row[4] == 0 then [] else [row[4]])
  {
    assert Sentinel !in row[..3] by {
      forall v | v in row[..3] ensures v != Sentinel { assert v in row; }
    }
    assert row[3] in row && row[4] in row;
    assert |HeadIds(row)| == 3;
  }

  /** The all-zero row left by an unknown code becomes the ring [0, 0, 0]. */
  lemma ZeroRowRing()
    ensures Ring(ZeroRow()) == [0, 0, 0]
  {
  }

  /** Ring sizes by record kind: a triangle gives its three ids, a quad its
      four unless the fourth id is 0 (then three), a polygon its first three
      ids plus whichever of the last two are not 0. */
  lemma CellRing(c: Cell)
    requires Sentinel !in CellRow(c)
    ensures c.Triangle? ==> Ring(CellRow(c)) == [c.a, c.b, c.c]
    ensures c.Quad? ==> Ring(CellRow(c)) == [c.a, c.b, c.c] + (if c.d == 0 then [] else [c.d])
    ensures c.Polygon? ==>
      Ring(CellRow(c)) == [c.p0, c.p1, c.p2] + (if c.p3 == 0 then [] else [c.p3]) + (if c.p4 == 0 then [] else [c.p4])
  {
    RingShape(CellRow(c));
    assert Ring(CellRow(c)) == Ring(CellRow(c))[..3] + Ring(CellRow(c))[3..];
  }

  /** End to end on a buffer of well-formed records whose ids all index the
      node table: one polygon per record, in record order, each the
      coordinates of the record's ring. */
  lemma {:induction false} MeshOfCells<P>(nodes: seq<P>, cells: seq<Cell>)
    requires |nodes| > 0
    requires forall i :: 0 <= i < |cells| ==> RowIndexable(|nodes|, CellRow(cells[i]))
    ensures GetMeshPolygons(nodes, Encode(cells), |cells|).Ok?
    ensures |GetMeshPolygons(nodes, Encode(cells), |cells|).value| == |cells|
    ensures forall i :: 0 <= i < |cells| ==>
      GetMeshPolygons(nodes, Encode(cells), |cells|).value[i] == RingCoords(nodes, CellRow(cells[i]))
  {
    DecodeExact(cells);
  }


  /** The worked example: eight nodes and one record of each kind, then a
      quad whose fourth id is 0 and which therefore becomes a triangle. */
  const ExampleNodes := [(0, 0, 0), (1, 0, 0), (1, 1, 0), (0, 1, 0), (2, 2, 0), (2, 2, 1), (2, 3, 1), (2, 3, 0)]
  const ExampleCells := [Triangle(0, 1, 2), Quad(0, 1, 2, 3), Polygon(5, 4, 5, 6, 7, 1), Quad(3, 2, 1, 0)]

  lemma ExampleBuffer()
    ensures Encode(ExampleCells) == [4, 0, 1, 2, 5, 0, 1, 2, 3, 3, 5, 4, 5, 6, 7, 1, 5, 3, 2, 1, 0]
  {
    var c := ExampleCells;
    assert c[1..][1..][1..][1..] == [];
    assert Encode(c[3..]) == [5, 3, 2, 1, 0];
    assert Encode(c[2..]) == [3, 5, 4, 5, 6, 7, 1, 5, 3, 2, 1, 0];
  }

  /** The coordinates of one ring in the example's node table. */
  lemma ExampleRing(row: Row, ring: seq<int>, expected: seq<(int, int, int)>)
    requires RowIndexable(|ExampleNodes|, row) && Ring(row) == ring
    requires |expected| == |ring|
    requires forall k :: 0 <= k < |ring| ==> 0 <= ring[k] < |ExampleNodes| && expected[k] == ExampleNodes[ring[k]]
    ensures RingCoords(ExampleNodes, row) == expected
  {
  }

  function ExampleRows(): (rows: seq<Row>)
    ensures rows == CellRows(ExampleCells)
    ensures RowsIndexable(|ExampleNodes|, rows)
  {
    var rows: seq<Row> := [[0, 1, 2, 0, 0], [0, 1, 2, 3, 0], [4, 5, 6, 7, 1], [3, 2, 1, 0, 0]];
    assert forall i, s :: 0 <= i < 4 && 0 <= s < RowWidth ==> 0 <= rows[i][s] < 8;
    rows
  }

  /** A triangle record [4, 0, 1, 2] gives the ring of nodes 0, 1, 2. */
  lemma ExampleTriangle()
    ensures RingCoords(ExampleNodes, [0, 1, 2, 0, 0]) == [(0, 0, 0), (1, 0, 0), (1, 1, 0)]
  {
    CellRing(Triangle(0, 1, 2));
    assert CellRow(Triangle(0, 1, 2)) == [0, 1, 2, 0, 0];
    assert Ring([0, 1, 2, 0, 0]) == [0, 1, 2];
    ExampleRing([0, 1, 2, 0, 0], [0, 1, 2], [(0, 0, 0), (1, 0, 0), (1, 1, 0)]);
  }

  lemma ExampleQuad()
    ensures RingCoords(ExampleNodes, [0, 1, 2, 3, 0]) == [(0, 0, 0), (1, 0, 0), (1, 1, 0), (0, 1, 0)]
  {
    CellRing(Quad(0, 1, 2, 3));
    assert CellRow(Quad(0, 1, 2, 3)) == [0, 1, 2, 3, 0];
    assert Ring([0, 1, 2, 3, 0]) == [0, 1, 2, 3];
    ExampleRing([0, 1, 2, 3, 0], [0, 1, 2, 3], [(0, 0, 0), (1, 0, 0), (1, 1, 0), (0, 1, 0)]);
  }

  /** A polygon record keeps node 1 in its last slot: only 0 counts as padding there. */
  lemma ExamplePolygon()
    ensures RingCoords(ExampleNodes, [4, 5, 6, 7, 1]) == [(2, 2, 0), (2, 2, 1), (2, 3, 1), (2, 3, 0), (1, 0, 0)]
  {
    CellRing(Polygon(5, 4, 5, 6, 7, 1));
    assert CellRow(Polygon(5, 4, 5, 6, 7, 1)) == [4, 5, 6, 7, 1];
    assert Ring([4, 5, 6, 7, 1]) == [4, 5, 6, 7, 1];
    ExampleRing([4, 5, 6, 7, 1], [4, 5, 6, 7, 1], [(2, 2, 0), (2, 2, 1), (2, 3, 1), (2, 3, 0), (1, 0, 0)]);
  }

  /** A quad whose fourth id is node 0 loses that node and becomes a triangle. */
  lemma ExampleDegenerateQuad()
    ensures RingCoords(ExampleNodes, [3, 2, 1, 0, 0]) == [(0, 1, 0), (1, 1, 0), (1, 0, 0)]
  {
    CellRing(Quad(3, 2, 1, 0));
    assert CellRow(Quad(3, 2, 1, 0)) == [3, 2, 1, 0, 0];
    assert Ring([3, 2, 1, 0, 0]) == [3, 2, 1];
    ExampleRing([3, 2, 1, 0, 0], [3, 2, 1], [(0, 1, 0), (1, 1, 0), (1, 0, 0)]);
  }

  /** The four polygons of the worked example, one per record, in record order. */
  lemma Example()
    ensures var r := GetMeshPolygons(ExampleNodes, Encode(ExampleCells), 4);
      && r.Ok? && |r.value| == 4
      && r.value[0] == [(0, 0, 0), (1, 0, 0), (1, 1, 0)]
      && r.value[1] == [(0, 0, 0), (1, 0, 0), (1, 1, 0), (0, 1, 0)]
      && r.value[2] == [(2, 2, 0), (2, 2, 1), (2, 3, 1), (2, 3, 0), (1, 0, 0)]
      && r.value[3] == [(0, 1, 0), (1, 1, 0), (1, 0, 0)]
  {
    var rows := ExampleRows();
    assert forall i :: 0 <= i < 4 ==> CellRow(ExampleCells[i]) == rows[i];
    MeshOfCells(ExampleNodes, ExampleCells);
    ExampleTriangle();
    ExampleQuad();
    ExamplePolygon();
    ExampleDegenerateQuad();
  }
}

=== FILE: pick_registry.dfy ===
/** The picked-point label registry of `toggle_pick_callback`
    (models/notebooks/libs/ats_vis.py:479-517).  The module-level dictionary
    becomes an explicit map from point key to label, created empty before
    the first pick.  The plotter is opaque: when a label is added, the model
    is told which label the plotter handed back; the label text, formatted
    from the coordinates, is not modelled. */
module PickRegistry {

  /** The call the callback makes on the plotter. */
  datatype PlotterCall<K, L> =
    /** `plotter.add_point_labels([point], ...)`. */
    | AddPointLabel(point: K)
    /** `plotter.remove_actor(label)`. */
    | RemoveActor(actor: L)

  datatype Toggled<K, L> = Toggled(registry: map<K, L>, call: PlotterCall<K, L>)

  /** One pick of the point with key `key`; `added` is the label the plotter
      returns if one is added. */
  function Toggle<K, L>(registry: map<K, L>, key: K, added: L): (t: Toggled<K, L>)
    ensures key in t.registry <==> key !in registry
    ensures key in t.registry ==> t.registry[key] == added && t.call == AddPointLabel(key)
    ensures key in registry ==> t.call == RemoveActor(registry[key])
    ensures t.registry.Keys == if key in registry then registry.Keys - {key} else registry.Keys + {key}
    ensures forall k :: k in registry && k != key ==> t.registry[k] == registry[k]
    ensures |t.registry| == if key in registry then |registry| - 1 else |registry| + 1
  {
    if key in registry then
      Toggled(registry - {key}, RemoveActor(registry[key]))
    else
      Toggled(registry[key := added], AddPointLabel(key))
  }

  /** Picking an unlabelled point twice restores the registry. */
  lemma ToggleTwiceAbsent<K, L>(registry: map<K, L>, key: K, first: L, second: L)
    requires key !in registry
    ensures Toggle(Toggle(registry, key, first).registry, key, second).registry == registry
  {
  }

  /** Picking a labelled point twice restores its entry, now holding the
      label of the second pick. */
  lemma ToggleTwicePresent<K, L>(registry: map<K, L>, key: K, first: L, second: L)
    requires key in registry
    ensures Toggle(Toggle(registry, key, first).registry, key, second).registry == registry[key := second]
  {
  }

  /** The registry after a sequence of picks from an empty start;
      `labels[i]` is what the plotter would return at pick i. */
  function Replay<K, L>(picks: seq<K>, labels: seq<L>): map<K, L>
    requires |labels| == |picks|
  {
    if |picks| == 0 then map[]
    else Toggle(Replay(picks[..|picks| - 1], labels[..|labels| - 1]), picks[|picks| - 1], labels[|labels| - 1]).registry
  }

  /** The number of times `key` occurs in `picks`. */
  function Occurrences<K(==)>(picks: seq<K>, key: K): nat
  {
    if |picks| == 0 then 0
    else Occurrences(picks[..|picks| - 1], key) + (if picks[|picks| - 1] == key then 1 else 0)
  }

  /** One more pick flips the key it names and leaves every other key as it was. */
  lemma ReplayLast<K, L>(picks: seq<K>, labels: seq<L>, key: K)
    requires |labels| == |picks| > 0
    ensures key in Replay(picks, labels) <==>
      if picks[|picks| - 1] == key then key !in Replay(picks[..|picks| - 1], labels[..|labels| - 1])
      else key in Replay(picks[..|picks| - 1], labels[..|labels| - 1])
  {
  }

  lemma OccurrencesLast<K>(picks: seq<K>, key: K)
    requires |picks| > 0
    ensures Occurrences(picks, key) == Occurrences(picks[..|picks| - 1], key) + if picks[|picks| - 1] == key then 1 else 0
  {
  }

  /** Flipping membership together with a count that grows by one, or
      keeping both, preserves "member exactly when the count is odd". */
  lemma ParityStep(before: bool, after: bool, o: nat, n: nat, flipped: bool)
    requires before <==> o % 2 == 1
    requires flipped ==> n == o + 1 && (after <==> !before)
    requires !flipped ==> n == o && (after <==> before)
    ensures after <==> n % 2 == 1
  {
  }

  /** A point carries a label exactly when it has been picked an odd number of times. */
  lemma {:induction false} LabelledIffOddPicks<K, L>(picks: seq<K>, labels: seq<L>, key: K)
    requires |labels| == |picks|
    ensures key in Replay(picks, labels) <==> Occurrences(picks, key) % 2 == 1
  {
    if |picks| > 0 {
      var pre, preLabels := picks[..|picks| - 1], labels[..|labels| - 1];
      LabelledIffOddPicks(pre, preLabels, key);
      ReplayLast(picks, labels, key);
      OccurrencesLast(picks, key);
      ParityStep(key in Replay(pre, preLabels), key in Replay(picks, labels),
                 Occurrences(pre, key), Occurrences(picks, key), picks[|picks| - 1] == key);
    }
  }

  /** The label a point carries is the one returned at its last pick. */
  lemma {:induction false} LabelFromLastPick<K, L>(picks: seq<K>, labels: seq<L>, key: K)
    requires |labels| == |picks|
    requires key in Replay(picks, labels)
    ensures exists i :: && 0 <= i < |picks| && picks[i] == key && Replay(picks, labels)[key] == labels[i]
                        && forall j :: i < j < |picks| ==> picks[j] != key
  {
    var n := |picks|;
    if picks[n - 1] == key {
      assert Replay(picks, labels)[key] == labels[n - 1];
    } else {
      var pre, preLabels := picks[..n - 1], labels[..n - 1];
      LabelFromLastPick(pre, preLabels, key);
      var i :| 0 <= i < |pre| && pre[i] == key && Replay(pre, preLabels)[key] == preLabels[i]
        && forall j :: i < j < |pre| ==> pre[j] != key;
      assert picks[i] == key && labels[i] == preLabels[i];
      assert forall j :: i < j < n ==> picks[j] != key by {
        forall j | i < j < n ensures picks[j] != key {
          if j < n - 1 { assert picks[j] == pre[j]; }
        }
      }
    }
  }
}

=== FILE: plot_params.dfy ===
/** The parameter handling of 03_transport/libs/ats_vis.py: how
    `plot_subsurface` and `plot_profiles` settle colour bounds and log
    scaling, the axis limits and label of the surface panel, the result file
    name of `get_var_names`, and the argument lists `plot_group` and
    `plot_all_domains` build from their dictionaries.  Drawing is not
    modelled; the data arrays are sequences of reals without NaN. */
module PlotParams {
  import opened Wrappers
  import opened Stats

  /** The exceptions the code can raise on the paths modelled here. */
  datatype PlotError =
    | IndexOutOfRange            // IndexError
    | NotSubscriptable           // TypeError: indexing a bool, None or number
    | EmptyData                  // ValueError: nanmin / nanmax / max of nothing
    | NoPositiveData             // ValueError: min of an empty selection
    | MissingGroup(group: string) // KeyError on `data_groups`
    | MissingKey(key: string)     // KeyError on a parameter dictionary

  /** The Python values that flow through the option dictionaries. */
  datatype Value =
    | Nothing
    | Flag(on: bool)
    | Number(x: real)
    | Text(s: string)
    | List(items: seq<Value>)

  /** Python truthiness. */
  predicate Truthy(v: Value)
  {
    match v
    case Nothing => false
    case Flag(on) => on
    case Number(x) => x != 0.0
    case Text(s) => |s| > 0
    case List(items) => |items| > 0
  }

  /** `v[k]` for a non-negative `k`: a string yields its k-th character. */
  function Index(v: Value, k: nat): (r: Result<Value, PlotError>)
    ensures r.Ok? <==> (v.Text? && k < |v.s|) || (v.List? && k < |v.items|)
    ensures r.Err? ==> r.error == (if v.Text? || v.List? then IndexOutOfRange else NotSubscriptable)
    ensures r.Ok? && v.List? ==> r.value == v.items[k]
    ensures r.Ok? && v.Text? ==> r.value == Text([v.s[k]])
  {
    match v
    case Text(s) => if k < |s| then Ok(Text([s[k]])) else Err(IndexOutOfRange)
    case List(items) => if k < |items| then Ok(items[k]) else Err(IndexOutOfRange)
    case _ => Err(NotSubscriptable)
  }

  // ---------------------------------------------------------------------
  // Colour bounds (lines 49-50, 141-150, 175-184).

  /** `np.floor(np.nanmin(data))` for the lower bound, `np.ceil(np.nanmax(data))` for the upper. */
  function DataBound(data: seq<real>, lower: bool): (r: Result<real, PlotError>)
    ensures r.Ok? <==> |data| > 0
    ensures r.Err? ==> r.error == EmptyData
    ensures r.Ok? ==> Floor(r.value) as real == r.value
    ensures r.Ok? && lower ==>
      (forall i :: 0 <= i < |data| ==> r.value <= data[i]) && exists i :: 0 <= i < |data| && data[i] < r.value + 1.0
    ensures r.Ok? && !lower ==>
      (forall i :: 0 <= i < |data| ==> data[i] <= r.value) && exists i :: 0 <= i < |data| && r.value - 1.0 < data[i]
  {
    if |data| == 0 then Err(EmptyData)
    else if lower then Ok(Floor(Min(data)) as real)
    else Ok(Ceil(Max(data)) as real)
  }

  /** Lines 49-50: `vmin[k] if vmin and vmin[k] is not None else …` for a
      per-panel list of bounds.  An explicit 0 is kept. */
  function PanelBound(bounds: Option<seq<Option<real>>>, k: nat, data: seq<real>, lower: bool)
    : (r: Result<real, PlotError>)
    ensures bounds.Some? && 0 < |bounds.value| <= k ==> r == Err(IndexOutOfRange)
    ensures bounds.Some? && k < |bounds.value| && bounds.value[k].Some? ==> r == Ok(bounds.value[k].value)
    ensures bounds.None? || |bounds.value| == 0 || (k < |bounds.value| && bounds.value[k].None?) ==>
      r == DataBound(data, lower)
  {
    if bounds.Some? && |bounds.value| > 0 then
      if k >= |bounds.value| then Err(IndexOutOfRange)
      else if bounds.value[k].Some? then Ok(bounds.value[k].value)
      else DataBound(data, lower)
    else DataBound(data, lower)
  }

  /** Lines 141-150 and 175-184: `vmin if vmin and vmin is not None else …`
      for one bound.  Only a truthy bound is honoured, so 0 is replaced. */
  function ProfileBound(bound: Option<real>, data: seq<real>, lower: bool): (r: Result<real, PlotError>)
    ensures bound.Some? && bound.value != 0.0 ==> r == Ok(bound.value)
    ensures bound.None? || bound.value == 0.0 ==> r == DataBound(data, lower)
  {
    if bound.Some? && bound.value != 0.0 then Ok(bound.value) else DataBound(data, lower)
  }

  /** The two panels treat a supplied lower bound of 0 differently: the
      subsurface panel keeps it, the profile panels replace it by the floor
      of the data, which differs from 0 once all data are at least 1. */
  lemma ZeroBoundTreatment(data: seq<real>)
    ensures PanelBound(Some([Some(0.0)]), 0, data, true) == Ok(0.0)
    ensures ProfileBound(Some(0.0), data, true) == DataBound(data, true)
    ensures |data| > 0 && (forall i :: 0 <= i < |data| ==> 1.0 <= data[i]) ==>
      ProfileBound(Some(0.0), data, true).value >= 1.0
  {
    if |data| > 0 && (forall i :: 0 <= i < |data| ==> 1.0 <= data[i]) {
      var r := ProfileBound(Some(0.0), data, true).value;
      var i :| 0 <= i < |data| && data[i] < r + 1.0;
      assert Floor(r) as real == r;
      assert 0.0 < r;
    }
  }

  // ---------------------------------------------------------------------
  // Log scaling (lines 54-58, 187-191).

  /** The lower bound used when a log scale is asked for with a lower bound of 0. */
  const LogFloor: real := 0.00000001

  datatype LogScale = LogScale(cmin: real, cmax: real, data: seq<real>)

  /** A zero lower bound becomes 1e-8, a zero upper bound ten times the
      lower, and every datum at or below the lower bound is raised to it. */
  function LogClamp(cmin: real, cmax: real, data: seq<real>): (c: LogScale)
    ensures c.cmin == (if cmin == 0.0 then LogFloor else cmin) && c.cmin != 0.0
    ensures c.cmax == (if cmax == 0.0 then 10.0 * c.cmin else cmax) && c.cmax != 0.0
    ensures |c.data| == |data|
    ensures forall i :: 0 <= i < |data| ==> c.cmin <= c.data[i]
    ensures forall i :: 0 <= i < |data| ==> (c.data[i] == data[i] <==> c.cmin <= data[i])
    ensures forall i :: 0 <= i < |data| && data[i] <= c.cmin ==> c.data[i] == c.cmin
  {
    var lo := if cmin == 0.0 then LogFloor else cmin;
    var hi := if cmax == 0.0 then lo * 10.0 else cmax;
    LogScale(lo, hi, seq(|data|, i requires 0 <= i < |data| => if data[i] <= lo then lo else data[i]))
  }

  /** Clamping twice changes nothing more than clamping once. */
  lemma LogClampIdempotent(cmin: real, cmax: real, data: seq<real>)
    ensures var c := LogClamp(cmin, cmax, data); LogClamp(c.cmin, c.cmax, c.data) == c
  {
    var c := LogClamp(cmin, cmax, data);
    var d := LogClamp(c.cmin, c.cmax, c.data);
    assert d.data == c.data;
  }

  /** The positive entries, in order. */
  function Positives(data: seq<real>): (p: seq<real>)
    ensures forall j :: 0 <= j < |p| ==> 0.0 < p[j] && p[j] in data
    ensures forall i :: 0 <= i < |data| && 0.0 < data[i] ==> data[i] in p
  {
    if |data| == 0 then []
    else (if 0.0 < data[0] then [data[0]] else []) + Positives(data[1..])
  }

  /** `LogNorm(vmin=data[data > 0].min(), vmax=data.max())`. */
  function NormRange(data: seq<real>): (r: Result<(real, real), PlotError>)
    ensures r.Ok? <==> exists i :: 0 <= i < |data| && 0.0 < data[i]
    ensures r.Err? ==> r.error == NoPositiveData
    ensures r.Ok? ==> 0.0 < r.value.0 && r.value.0 in data && r.value.1 in data
    ensures r.Ok? ==> forall i :: 0 <= i < |data| ==>
      data[i] <= r.value.1 && (0.0 < data[i] ==> r.value.0 <= data[i])
  {
    var p := Positives(data);
    if |p| == 0 then
      assert forall i :: 0 <= i < |data| ==> data[i] <= 0.0;
      Err(NoPositiveData)
    else
      assert p[0] in data;
      Ok((Min(p), Max(data)))
  }

  /** After clamping to a positive lower bound, the log norm exists for any
      non-empty data and starts no lower than that bound; a zero lower bound
      is always positive after clamping. */
  lemma ClampedNormExists(cmin: real, cmax: real, data: seq<real>)
    requires |data| > 0
    requires 0.0 <= cmin
    ensures var c := LogClamp(cmin, cmax, data);
      NormRange(c.data).Ok? && c.cmin <= NormRange(c.data).value.0
  {
    var c := LogClamp(cmin, cmax, data);
    assert 0.0 < c.data[0];
    var lo := NormRange(c.data).value.0;
    var i :| 0 <= i < |c.data| && c.data[i] == lo;
  }

  // ---------------------------------------------------------------------
  // The surface panel (lines 151-171).

  const SurfaceFloor: real := 0.0000000001
  const SurfaceFallbackTop: real := 0.00001

  function Max2(a: real, b: real): real
  {
    if b > a then b else a
  }

  /** The y limits of the surface panel from the settled bounds.  The bounds
      come out of `ProfileBound` as numbers, never None, so the `is None`
      alternatives of lines 154-155 are never taken: with a positive datum
      the bounds stay, with none they become (1e-10, 1e-5).  Line 171 then
      keeps the lower limit above zero. */
  function SurfaceLimits(cmin: real, cmax: real, logSurface: bool, data: seq<real>): (lim: (real, real))
    ensures SurfaceFloor <= lim.0 && 0.0 < lim.0
    ensures logSurface && (forall i :: 0 <= i < |data| ==> data[i] <= 0.0) ==>
      lim == (SurfaceFloor, SurfaceFallbackTop)
    ensures !logSurface || (exists i :: 0 <= i < |data| && 0.0 < data[i]) ==>
      lim.1 == cmax && (cmin < SurfaceFloor ==> lim.0 == SurfaceFloor) && (SurfaceFloor <= cmin ==> lim.0 == cmin)
  {
    var bounds := if logSurface && |Positives(data)| == 0 then (SurfaceFloor, SurfaceFallbackTop) else (cmin, cmax);
    assert logSurface && |Positives(data)| > 0 ==> Positives(data)[0] in data;
    (Max2(bounds.0, SurfaceFloor), bounds.1)
  }

  /** Lines 165-167: the x axis ends at the largest x rounded up to a whole hundred. */
  function XLimit(x: seq<real>): (r: Result<int, PlotError>)
    ensures r.Ok? <==> |x| > 0
    ensures r.Err? ==> r.error == EmptyData
    ensures r.Ok? ==> r.value % 100 == 0
    ensures r.Ok? ==> forall i :: 0 <= i < |x| ==> x[i] <= r.value as real
    ensures r.Ok? ==> exists i :: 0 <= i < |x| && (r.value - 100) as real < x[i]
  {
    if |x| == 0 then Err(EmptyData)
    else
      RoundUpToHundred(Max(x));
      Ok(Ceil(Max(x) / 100.0) * 100)
  }

  /** `int(np.ceil(v / 100.0) * 100)` is a whole hundred in [v, v + 100). */
  lemma RoundUpToHundred(v: real)
    ensures (Ceil(v / 100.0) * 100) % 100 == 0
    ensures v <= (Ceil(v / 100.0) * 100) as real < v + 100.0
  {
    var h := Ceil(v / 100.0);
    assert (h - 1) as real < v / 100.0 <= h as real;
    assert (h * 100) as real == h as real * 100.0;
  }

  // ---------------------------------------------------------------------
  // The surface label (line 163).

  predicate OccursAt(s: string, pat: string, j: nat)
  {
    j + |pat| <= |s| && s[j..j + |pat|] == pat
  }

  /** The first position at or after `from` where `pat` occurs in `s`. */
  function FindFirst(s: string, pat: string, from: nat): (r: Option<nat>)
    requires from <= |s|
    ensures r.Some? ==> from <= r.value && OccursAt(s, pat, r.value)
    ensures r.Some? ==> forall j :: from <= j < r.value ==> !OccursAt(s, pat, j)
    ensures r.None? ==> forall j :: from <= j ==> !OccursAt(s, pat, j)
    decreases |s| - from
  {
    if from + |pat| > |s| then None
    else if s[from..from + |pat|] == pat then Some(from)
    else FindFirst(s, pat, from + 1)
  }

  /** `s.replace(pat, "", 1)`.  Removing the first occurrence loses nothing
      else: putting `pat` back where it was found gives the original, and a
      string without `pat` is left alone. */
  function RemoveFirst(s: string, pat: string): (r: string)
    ensures FindFirst(s, pat, 0).None? ==> r == s
    ensures FindFirst(s, pat, 0).Some? ==>
      var i := FindFirst(s, pat, 0).value;
      |r| == |s| - |pat| && r[..i] + pat + r[i..] == s
  {
    match FindFirst(s, pat, 0)
    case None => s
    case Some(i) =>
      SpliceBack(s, pat, i);
      s[..i] + s[i + |pat|..]
  }

  /** Cutting an occurrence out and putting it back gives the original. */
  lemma SpliceBack(s: string, pat: string, i: nat)
    requires OccursAt(s, pat, i)
    ensures var r := s[..i] + s[i + |pat|..]; |r| == |s| - |pat| && r[..i] + pat + r[i..] == s
  {
    var r := s[..i] + s[i + |pat|..];
    assert r[..i] == s[..i];
    assert r[i..] == s[i + |pat|..];
    assert s[..i] + s[i..i + |pat|] + s[i + |pat|..] == s;
  }

  const SurfacePrefix: string := "surface-"

  /** The y label of the surface panel: the variable name without its first "surface-". */
  function SurfaceLabel(varSurface: string): (r: string)
    ensures FindFirst(varSurface, SurfacePrefix, 0).None? ==> r == varSurface
    ensures |SurfacePrefix| <= |varSurface| && varSurface[..|SurfacePrefix|] == SurfacePrefix ==>
      r == varSurface[|SurfacePrefix|..]
  {
    assert OccursAt(varSurface, SurfacePrefix, 0) ==> FindFirst(varSurface, SurfacePrefix, 0) == Some(0);
    RemoveFirst(varSurface, SurfacePrefix)
  }

  /** A name that starts with the prefix loses exactly that prefix, and
      only once. */
  lemma SurfaceLabelOfPrefixed(rest: string)
    ensures SurfaceLabel(SurfacePrefix + rest) == rest
  {
    var s := SurfacePrefix + rest;
    assert s[0..|SurfacePrefix|] == SurfacePrefix;
    assert s[|SurfacePrefix|..] == rest;
  }

  // ---------------------------------------------------------------------
  // The result file name (lines 243-248).

  const DefaultResultFile: string := "ats_vis_data.h5"
  const ResultPrefix: string := "ats_vis_"
  const ResultSuffix: string := "_data.h5"

  /** The file name used when none is given. */
  function DefaultFileName(domain: Option<string>): (name: string)
    ensures domain.None? ==> name == DefaultResultFile
    ensures domain.Some? ==>
      && |name| == |ResultPrefix| + |domain.value| + |ResultSuffix|
      && name[..|ResultPrefix|] == ResultPrefix
      && name[|ResultPrefix|..|ResultPrefix| + |domain.value|] == domain.value
      && name[|ResultPrefix| + |domain.value|..] == ResultSuffix
  {
    match domain
    case None => DefaultResultFile
    case Some(d) => ResultPrefix + d + ResultSuffix
  }

  /** Different domains never share a result file. */
  lemma DefaultFileNameInjective(a: Option<string>, b: Option<string>)
    requires DefaultFileName(a) == DefaultFileName(b)
    ensures a == b
  {
    if a.Some? && b.Some? {
      assert |a.value| == |b.value|;
    }
  }

  /** `os.path.join(directory, name)` on POSIX for one component. */
  function JoinPath(directory: string, name: string): (p: string)
    ensures |name| <= |p| && p[|p| - |name|..] == name
    ensures (|name| > 0 && name[0] == '/') || |directory| == 0 ==> p == name
    ensures !((|name| > 0 && name[0] == '/') || |directory| == 0) ==>
      |directory| <= |p| && p[..|directory|] == directory && |name| < |p| && p[|p| - |name| - 1] == '/'
    ensures !((|name| > 0 && name[0] == '/') || |directory| == 0) ==>
      |p| == |directory| + |name| + (if directory[|directory| - 1] == '/' then 0 else 1)
  {
    if |name| > 0 && name[0] == '/' then name
    else if |directory| == 0 then name
    else if directory[|directory| - 1] == '/' then directory + name
    else directory + "/" + name
  }

  /** The path `get_var_names` opens: an explicit file name wins, otherwise
      the domain's default name, in either case under `directory`. */
  function ResultPath(directory: string, domain: Option<string>, filename: Option<string>): (p: string)
    ensures filename.Some? ==> p == JoinPath(directory, filename.value)
    ensures filename.None? ==> p == JoinPath(directory, DefaultFileName(domain))
  {
    var name := if filename.Some? then filename.value else DefaultFileName(domain);
    JoinPath(directory, name)
  }

  // ---------------------------------------------------------------------
  // `plot_group` (lines 254-282).

  /** The keyword arguments read from the merged parameters, in order. */
  const MergedKeys: seq<string> := [
    "var_surface", "unit_surface", "vmin_surface", "vmax_surface", "log_surface",
    "var_domain", "unit_domain", "vmin_domain", "vmax_domain", "log_domain",
    "cmap", "figsize", "show_colorbar"]

  /** The keyword arguments read from the options alone, in order. */
  const OptionKeys: seq<string> := ["aspect", "height_ratios", "plot_ponding"]

  /** Read `keys` from `source` in order; the first missing one raises. */
  function Collect(source: map<string, Value>, keys: seq<string>): (r: Result<map<string, Value>, PlotError>)
    ensures r.Ok? <==> forall i :: 0 <= i < |keys| ==> keys[i] in source
    ensures r.Ok? ==> r.value.Keys == set i | 0 <= i < |keys| :: keys[i]
    ensures r.Ok? ==> forall key :: key in r.value ==> r.value[key] == source[key]
    ensures r.Err? ==>
      exists i :: 0 <= i < |keys| && r.error == MissingKey(keys[i]) && keys[i] !in source
        && forall j :: 0 <= j < i ==> keys[j] in source
  {
    if |keys| == 0 then Ok(map[])
    else if keys[0] !in source then Err(MissingKey(keys[0]))
    else
      match Collect(source, keys[1..])
      case Err(e) =>
        var i :| 0 <= i < |keys[1..]| && e == MissingKey(keys[1..][i]) && keys[1..][i] !in source
          && forall j :: 0 <= j < i ==> keys[1..][j] in source;
        assert keys[i + 1] == keys[1..][i];
        Err(e)
      case Ok(rest) =>
        assert (set i | 0 <= i < |keys| :: keys[i]) == {keys[0]} + set i | 0 <= i < |keys[1..]| :: keys[1..][i];
        Ok(rest[keys[0] := source[keys[0]]])
  }

  /** `plot_group`: the arguments passed to `plot_profiles`. */
  function PlotGroup(options: map<string, Value>, groups: map<string, map<string, Value>>, name: string)
    : (r: Result<map<string, Value>, PlotError>)
    ensures name !in groups ==> r == Err(MissingGroup(name))
    ensures r.Ok? ==>
      && name in groups
      && r.value.Keys == (set i | 0 <= i < |MergedKeys| :: MergedKeys[i]) + (set i | 0 <= i < |OptionKeys| :: OptionKeys[i])
  {
    var group :- if name in groups then Ok(groups[name]) else Err(MissingGroup(name));
    var params := options + group;
    var merged :- Collect(params, MergedKeys);
    var fixed :- Collect(options, OptionKeys);
    Ok(merged + fixed)
  }

  /** A group's own setting overrides the shared option for every merged
      key, while aspect, height ratios and ponding always come from the
      options, even when the group sets them. */
  lemma PlotGroupSources(options: map<string, Value>, groups: map<string, map<string, Value>>, name: string)
    ensures name !in groups ==> PlotGroup(options, groups, name) == Err(MissingGroup(name))
    ensures PlotGroup(options, groups, name).Ok? ==>
      var args := PlotGroup(options, groups, name).value;
      && (forall i :: 0 <= i < |MergedKeys| ==>
            args[MergedKeys[i]] == if MergedKeys[i] in groups[name] then groups[name][MergedKeys[i]] else options[MergedKeys[i]])
      && (forall i :: 0 <= i < |OptionKeys| ==> args[OptionKeys[i]] == options[OptionKeys[i]])
    ensures PlotGroup(options, groups, name).Ok? <==>
      name in groups
      && (forall i :: 0 <= i < |MergedKeys| ==> MergedKeys[i] in options || MergedKeys[i] in groups[name])
      && (forall i :: 0 <= i < |OptionKeys| ==> OptionKeys[i] in options)
  {
    if PlotGroup(options, groups, name).Ok? {
      PlotGroupValues(options, groups, name);
    }
  }

  /** Where each argument of a successful `plot_group` comes from. */
  lemma PlotGroupValues(options: map<string, Value>, groups: map<string, map<string, Value>>, name: string)
    requires PlotGroup(options, groups, name).Ok?
    ensures name in groups
    ensures var args := PlotGroup(options, groups, name).value;
      && (forall i :: 0 <= i < |MergedKeys| ==>
            args[MergedKeys[i]] == if MergedKeys[i] in groups[name] then groups[name][MergedKeys[i]] else options[MergedKeys[i]])
      && (forall i :: 0 <= i < |OptionKeys| ==> args[OptionKeys[i]] == options[OptionKeys[i]])
  {
    var merged := Collect(options + groups[name], MergedKeys).value;
    var fixed := Collect(options, OptionKeys).value;
    KeyListsDisjoint();
    assert merged.Keys !! fixed.Keys;
    assert PlotGroup(options, groups, name).value == merged + fixed;
  }

  /** No key is read both from the merged parameters and from the options alone. */
  lemma KeyListsDisjoint()
    ensures forall i, j :: 0 <= i < |MergedKeys| && 0 <= j < |OptionKeys| ==> MergedKeys[i] != OptionKeys[j]
  {
  }

  // ---------------------------------------------------------------------
  // `plot_all_domains` (lines 285-300) and the per-panel reads of
  // `plot_subsurface` (lines 48, 51, 74).

  /** The arguments `plot_all_domains` passes to `plot_subsurface`. */
  datatype SubsurfaceArgs = SubsurfaceArgs(
    variables: seq<Value>, vmin: seq<Value>, vmax: seq<Value>, cmap: seq<Value>,
    logScales: seq<Value>, plotPonding: Value,
    aspect: Value, figsize: Value, showColorbar: Value)

  /** `[g[key] for g in data_groups.values()]`. */
  function ColumnOf(groups: seq<map<string, Value>>, key: string): (r: Result<seq<Value>, PlotError>)
    ensures r.Ok? <==> forall i :: 0 <= i < |groups| ==> key in groups[i]
    ensures r.Ok? ==> |r.value| == |groups| && forall i :: 0 <= i < |groups| ==> r.value[i] == groups[i][key]
    ensures r.Err? ==> r.error == MissingKey(key)
  {
    if forall i :: 0 <= i < |groups| ==> key in groups[i] then
      Ok(seq(|groups|, i requires 0 <= i < |groups| => groups[i][key]))
    else Err(MissingKey(key))
  }

  function OptionOf(options: map<string, Value>, key: string): Result<Value, PlotError>
  {
    Lookup(options, key, MissingKey(key))
  }

  /** The keys every group must have for `plot_all_domains`. */
  predicate HasListKeys(group: map<string, Value>)
  {
    && "var_domain" in group && "vmin_domain" in group && "vmax_domain" in group
    && "cmap" in group && "log_domain" in group && "plot_ponding" in group
  }

  /** The keys `plot_all_domains` reads from the options. */
  predicate HasSharedKeys(options: map<string, Value>)
  {
    "aspect" in options && "figsize" in options && "show_colorbar" in options
  }

  /** `plot_all_domains`: the groups in dictionary order, one panel each. */
  function PlotAllDomains(options: map<string, Value>, groups: seq<map<string, Value>>)
    : (r: Result<SubsurfaceArgs, PlotError>)
    ensures r.Ok? <==> (forall i :: 0 <= i < |groups| ==> HasListKeys(groups[i])) && HasSharedKeys(options)
    ensures r.Err? ==>
      r.error.MissingKey? && (r.error.key !in options || exists i :: 0 <= i < |groups| && r.error.key !in groups[i])
    ensures r.Ok? ==> |r.value.variables| == |r.value.vmin| == |r.value.vmax| == |r.value.cmap| == |r.value.logScales| == |groups|
    ensures r.Ok? ==> forall i :: 0 <= i < |groups| ==>
      && r.value.variables[i] == groups[i]["var_domain"]
      && r.value.vmin[i] == groups[i]["vmin_domain"] && r.value.vmax[i] == groups[i]["vmax_domain"]
      && r.value.cmap[i] == groups[i]["cmap"] && r.value.logScales[i] == groups[i]["log_domain"]
    ensures r.Ok? ==>
      && r.value.plotPonding.List? && |r.value.plotPonding.items| == |groups|
      && forall i :: 0 <= i < |groups| ==> r.value.plotPonding.items[i] == groups[i]["plot_ponding"]
    ensures r.Ok? ==>
      r.value.aspect == options["aspect"] && r.value.figsize == options["figsize"]
      && r.value.showColorbar == options["show_colorbar"]
  {
    var variables :- ColumnOf(groups, "var_domain");
    var vmin :- ColumnOf(groups, "vmin_domain");
    var vmax :- ColumnOf(groups, "vmax_domain");
    var cmap :- ColumnOf(groups, "cmap");
    var logScales :- ColumnOf(groups, "log_domain");
    var ponding :- ColumnOf(groups, "plot_ponding");
    var aspect :- OptionOf(options, "aspect");
    var figsize :- OptionOf(options, "figsize");
    var showColorbar :- OptionOf(options, "show_colorbar");
    Ok(SubsurfaceArgs(variables, vmin, vmax, cmap, logScales, List(ponding), aspect, figsize, showColorbar))
  }

  /** Line 74: `if plot_ponding and k == 0`. */
  predicate PondingOnPanel(plotPonding: Value, k: nat)
  {
    Truthy(plotPonding) && k == 0
  }

  /** The ponding flags of the groups are never looked at: their list is
      truthy as soon as there is a group, so ponding is drawn on the first
      panel and no other, even when every group says False. */
  lemma PondingOnFirstPanelOnly(options: map<string, Value>, groups: seq<map<string, Value>>, k: nat)
    requires PlotAllDomains(options, groups).Ok?
    ensures PondingOnPanel(PlotAllDomains(options, groups).value.plotPonding, k) <==> k == 0 && |groups| > 0
  {
  }

  /** Line 48 as written: `cmap[k] if cmap[k] else 'jet'`. */
  function PanelColormap(cmap: Value, k: nat): (r: Result<Value, PlotError>)
    ensures r.Ok? <==> Index(cmap, k).Ok?
    ensures r.Ok? ==> r.value == if Truthy(Index(cmap, k).value) then Index(cmap, k).value else Text("jet")
  {
    var c :- Index(cmap, k);
    Ok(if Truthy(c) then c else Text("jet"))
  }

  /** With its default "jet", `plot_subsurface` indexes the string and
      asks for the colour maps "j", "e" and "t". */
  lemma DefaultColormapSplits()
    ensures PanelColormap(Text("jet"), 0) == Ok(Text("j"))
    ensures PanelColormap(Text("jet"), 1) == Ok(Text("e"))
    ensures PanelColormap(Text("jet"), 3) == Err(IndexOutOfRange)
  {
  }

  /** Line 48 as evidently meant: one name for every panel, or one per panel. */
  function PanelColormapCorrected(cmap: Value, k: nat): (r: Result<Value, PlotError>)
    ensures cmap.Text? ==> r == Ok(if Truthy(cmap) then cmap else Text("jet"))
    ensures cmap.List? ==> r == PanelColormap(cmap, k)
    ensures !cmap.Text? && !cmap.List? ==> r == Ok(Text("jet"))
  {
    match cmap
    case Text(_) => Ok(if Truthy(cmap) then cmap else Text("jet"))
    case List(_) => PanelColormap(cmap, k)
    case _ => Ok(Text("jet"))
  }

  /** Line 51 as written: `log_scales[k] if log_scales is not None else False`. */
  function PanelLogScale(logScales: Value, k: nat): (r: Result<Value, PlotError>)
    ensures logScales.Nothing? ==> r == Ok(Flag(false))
    ensures !logScales.Nothing? ==> r == Index(logScales, k)
  {
    if logScales.Nothing? then Ok(Flag(false)) else Index(logScales, k)
  }

  /** With its default False, the subscript raises TypeError on every panel. */
  lemma DefaultLogScalesFail(k: nat)
    ensures PanelLogScale(Flag(false), k) == Err(NotSubscriptable)
  {
  }

  /** Line 51 as evidently meant: a list gives one flag per panel, any other
      value is one flag for all panels. */
  function PanelLogScaleCorrected(logScales: Value, k: nat): (r: Result<Value, PlotError>)
    ensures logScales.List? ==> r == Index(logScales, k)
    ensures !logScales.List? ==> r == Ok(Flag(Truthy(logScales)))
  {
    if logScales.List? then Index(logScales, k) else Ok(Flag(Truthy(logScales)))
  }

  /** The corrected reads agree with the code on the lists `plot_all_domains`
      passes, and never raise TypeError. */
  lemma CorrectedReadsAgreeOnLists(options: map<string, Value>, groups: seq<map<string, Value>>, k: nat)
    requires PlotAllDomains(options, groups).Ok?
    ensures var args := PlotAllDomains(options, groups).value;
      && PanelColormapCorrected(List(args.cmap), k) == PanelColormap(List(args.cmap), k)
      && PanelLogScaleCorrected(List(args.logScales), k) == PanelLogScale(List(args.logScales), k)
    ensures forall v: Value :: PanelLogScaleCorrected(v, k) != Err(NotSubscriptable)
    ensures forall v: Value :: PanelColormapCorrected(v, k) != Err(NotSubscriptable)
  {
  }
}

=== FILE: source_schedule.dfy ===
/** The piecewise-constant source schedule shared by `get_rainfall_from_xml`
    and `get_tracer_source_from_xml` (models/notebooks/libs/ats_vis.py:601-673).
    Both read a tabular function (breakpoints `x` in seconds, values `y`)
    from an XML parameter list and map it onto the observation times; the
    XML lookup and the float parsing are not modelled, the two lists are
    inputs.  The loop (lines 629-630 and 670-671) overwrites, for every
    interval i, the observations inside [x[i]/3600, x[i+1]/3600] with
    y[i]*sfactor, so a later interval wins where two intervals touch. */
module SourceSchedule {
  import opened Wrappers

  const SecondsPerHour: real := 3600.0

  datatype ScheduleError =
    /** `y_values[i]` for an interval i with no value (IndexError). */
    | MissingValue(interval: nat)

  /** Breakpoints converted from seconds to hours (lines 626 and 665). */
  function ToHours(xs: seq<real>): (hs: seq<real>)
    ensures |hs| == |xs|
    ensures forall i :: 0 <= i < |xs| ==> hs[i] * SecondsPerHour == xs[i]
  {
    seq(|xs|, i requires 0 <= i < |xs| => xs[i] / SecondsPerHour)
  }

  /** Observation time `t` lies in interval `i` (the boolean mask of line 630). */
  predicate Covers(hours: seq<real>, i: nat, t: real)
    requires i + 1 < |hours|
  {
    hours[i] <= t <= hours[i + 1]
  }

  /** Iterations `i` .. `|hours|`-2 of the loop, applied to `out`. */
  function Sweep(hours: seq<real>, y: seq<real>, times: seq<real>, sfactor: real, i: nat, out: seq<real>)
    : (r: Result<seq<real>, ScheduleError>)
    requires |out| == |times|
    decreases |hours| - i
    ensures r.Ok? <==> i + 1 >= |hours| || |hours| - 1 <= |y|
    ensures r.Err? && i <= |y| ==> r.error == MissingValue(|y|)
    ensures r.Ok? ==> |r.value| == |times|
  {
    if i + 1 >= |hours| then Ok(out)
    else if i >= |y| then Err(MissingValue(i))
    else
      var next := seq(|times|, k requires 0 <= k < |times| =>
        if Covers(hours, i, times[k]) then y[i] * sfactor else out[k]);
      Sweep(hours, y, times, sfactor, i + 1, next)
  }

  /** The schedule: one value per observation time, 0 where no interval covers it. */
  function StepSchedule(xSeconds: seq<real>, y: seq<real>, times: seq<real>, sfactor: real)
    : (r: Result<seq<real>, ScheduleError>)
    ensures r.Ok? <==> |y| + 1 >= |xSeconds|
    ensures r.Err? ==> r.error == MissingValue(|y|)
    ensures r.Ok? ==> |r.value| == |times|
  {
    Sweep(ToHours(xSeconds), y, times, sfactor, 0, seq(|times|, _ => 0.0))
  }

  // ---------------------------------------------------------------------
  // Reference: the last interval that covers an observation time.

  /** Some interval j with `from <= j` covers `t`. */
  predicate CoveredFrom(hours: seq<real>, from: nat, t: real)
  {
    exists j :: from <= j && j + 1 < |hours| && Covers(hours, j, t)
  }

  /** The largest interval index covering `t`, if any. */
  function LastCovering(hours: seq<real>, t: real): (j: Option<nat>)
    ensures j.Some? ==> j.value + 1 < |hours| && Covers(hours, j.value, t)
    ensures j.Some? ==> forall k: nat :: j.value < k && k + 1 < |hours| ==> !Covers(hours, k, t)
    ensures j.None? ==> forall k: nat :: k + 1 < |hours| ==> !Covers(hours, k, t)
  {
    LastCoveringBelow(hours, t, if |hours| == 0 then 0 else |hours| - 1)
  }

  function LastCoveringBelow(hours: seq<real>, t: real, n: nat): (j: Option<nat>)
    requires n == 0 || n < |hours|
    ensures j.Some? ==> j.value < n && j.value + 1 < |hours| && Covers(hours, j.value, t)
    ensures j.Some? ==> forall k: nat :: j.value < k < n ==> !Covers(hours, k, t)
    ensures j.None? ==> forall k: nat :: k < n ==> !Covers(hours, k, t)
  {
    if n == 0 then None
    else if Covers(hours, n - 1, t) then Some(n - 1)
    else LastCoveringBelow(hours, t, n - 1)
  }

  /** The value the reference rule gives to time `t`. */
  function Expected(hours: seq<real>, y: seq<real>, sfactor: real, t: real): real
    requires |y| + 1 >= |hours|
  {
    match LastCovering(hours, t)
    case Some(j) => y[j] * sfactor
    case None => 0.0
  }

  /** What the sweep from interval `i` on does to one entry. */
  lemma {:induction false} SweepEntry(hours: seq<real>, y: seq<real>, times: seq<real>, sfactor: real,
                                       i: nat, out: seq<real>, k: nat)
    requires |out| == |times| && k < |times| && |y| + 1 >= |hours|
    requires Sweep(hours, y, times, sfactor, i, out).Ok?
    decreases |hours| - i
    ensures var r := Sweep(hours, y, times, sfactor, i, out).value;
      var j := LastCovering(hours, times[k]);
      r[k] == if j.Some? && i <= j.value then y[j.value] * sfactor else out[k]
  {
    var j := LastCovering(hours, times[k]);
    if i + 1 < |hours| {
      var next := seq(|times|, m requires 0 <= m < |times| =>
        if Covers(hours, i, times[m]) then y[i] * sfactor else out[m]);
      SweepEntry(hours, y, times, sfactor, i + 1, next, k);
      if Covers(hours, i, times[k]) {
        assert j.Some? && i <= j.value;
      }
    } else {
      assert j.Some? ==> j.value < i;
    }
  }

  /** Entry t of the schedule is y[j]*sfactor for the largest interval j
      with x[j]/3600 <= t <= x[j+1]/3600, and 0 when no interval holds t. */
  lemma ScheduleIsLastCovering(xSeconds: seq<real>, y: seq<real>, times: seq<real>, sfactor: real)
    requires |y| + 1 >= |xSeconds|
    ensures forall k :: 0 <= k < |times| ==>
      StepSchedule(xSeconds, y, times, sfactor).value[k] == Expected(ToHours(xSeconds), y, sfactor, times[k])
  {
    forall k | 0 <= k < |times|
      ensures StepSchedule(xSeconds, y, times, sfactor).value[k] == Expected(ToHours(xSeconds), y, sfactor, times[k])
    {
      SweepEntry(ToHours(xSeconds), y, times, sfactor, 0, seq(|times|, _ => 0.0), k);
    }
  }

  /** The value after the last breakpoint interval is never read: changing
      y at or beyond index |x|-1 does not change the schedule. */
  lemma LastValueUnused(xSeconds: seq<real>, y: seq<real>, y': seq<real>, times: seq<real>, sfactor: real)
    requires |xSeconds| >= 1 && |y| + 1 >= |xSeconds| && |y'| + 1 >= |xSeconds|
    requires y[..|xSeconds| - 1] == y'[..|xSeconds| - 1]
    ensures StepSchedule(xSeconds, y, times, sfactor) == StepSchedule(xSeconds, y', times, sfactor)
  {
    var hours := ToHours(xSeconds);
    ScheduleIsLastCovering(xSeconds, y, times, sfactor);
    ScheduleIsLastCovering(xSeconds, y', times, sfactor);
    forall k | 0 <= k < |times|
      ensures Expected(hours, y, sfactor, times[k]) == Expected(hours, y', sfactor, times[k])
    {
      var j := LastCovering(hours, times[k]);
      if j.Some? {
        assert y[j.value] == y[..|xSeconds| - 1][j.value];
      }
    }
    var r, r' := StepSchedule(xSeconds, y, times, sfactor).value, StepSchedule(xSeconds, y', times, sfactor).value;
    assert r == r';
  }

  /** With fewer than two breakpoints there is no interval, and every entry is 0. */
  lemma NoIntervalAllZero(xSeconds: seq<real>, y: seq<real>, times: seq<real>, sfactor: real)
    requires |xSeconds| <= 1
    ensures StepSchedule(xSeconds, y, times, sfactor) == Ok(seq(|times|, _ => 0.0))
  {
  }
}

=== FILE: stats.dfy ===
/** The numpy reductions and roundings the plotting code applies to float
    arrays, over exact reals: `min`/`max` (and `nanmin`/`nanmax`, NaN not
    being modelled), `floor`, `ceil` and `int()` truncation. */
module Stats {

  /** The smallest entry (Python `min`, numpy `nanmin`). */
  function Min(s: seq<real>): (m: real)
    requires |s| > 0
    ensures m in s
    ensures forall i :: 0 <= i < |s| ==> m <= s[i]
  {
    if |s| == 1 then s[0]
    else
      var rest := Min(s[1..]);
      assert forall i :: 1 <= i < |s| ==> s[i] == s[1..][i - 1];
      if s[0] <= rest then s[0] else rest
  }

  /** The largest entry (Python `max`, numpy `nanmax`). */
  function Max(s: seq<real>): (m: real)
    requires |s| > 0
    ensures m in s
    ensures forall i :: 0 <= i < |s| ==> s[i] <= m
  {
    if |s| == 1 then s[0]
    else
      var rest := Max(s[1..]);
      assert forall i :: 1 <= i < |s| ==> s[i] == s[1..][i - 1];
      if rest <= s[0] then s[0] else rest
  }

  /** `np.floor`: the greatest integer not above `r`. */
  function Floor(r: real): (f: int)
    ensures f as real <= r < f as real + 1.0
  {
    r.Floor
  }

  /** `np.ceil`: the least integer not below `r`. */
  function Ceil(r: real): (c: int)
    ensures c as real - 1.0 < r <= c as real
  {
    -((-r).Floor)
  }

  /** Python `int()` on a float: truncation toward zero. */
  function Trunc(r: real): (t: int)
    ensures 0.0 <= r ==> t == Floor(r)
    ensures r < 0.0 ==> t == Ceil(r)
    ensures (if t < 0 then -t else t) as real <= (if r < 0.0 then -r else r)
  {
    if 0.0 <= r then r.Floor else -((-r).Floor)
  }
}

=== FILE: wrappers.dfy ===
/** Failure-carrying results shared by every module of the model. A Python
    exception raised by the modelled code becomes an `Err` carrying a value
    that names the exception's cause. */
module Wrappers {

  datatype Option<+T> = None | Some(value: T)

  datatype Result<+T, +E> = Ok(value: T) | Err(error: E) {

    predicate IsFailure() {
      Err?
    }

    function PropagateFailure<U>(): Result<U, E>
      requires Err?
    {
      Err(error)
    }

    function Extract(): T
      requires Ok?
    {
      value
    }
  }

  /** A dictionary subscript `m[key]`: the entry, or the KeyError `missing`. */
  function Lookup<K, V, E>(m: map<K, V>, key: K, missing: E): (r: Result<V, E>)
    ensures r.Ok? <==> key in m
    ensures r.Ok? ==> r.value == m[key]
    ensures r.Err? ==> r.error == missing
  {
    if key in m then Ok(m[key]) else Err(missing)
  }
}
